=== FILE: README.md ===
# CherryStudio combat core in Dafny

This project models the combat simulation of the CherryStudio Unity package:

- **Observable bar stats.** These are the health and mana pools: a clamped integer with change notifications, idle time, below-threshold actions and a rescalable maximum.
- **Entities.** An entity's life pool decides whether it is alive.
- **Attacks.** Damage comes from supplied random draws, with critical hits and target-tag eligibility.
- **Attack sets.** Each set keeps a name index over its attacks.
- **The attacker.** It gates attacks on mana and keeps a per-kind ammo ledger. It owns the melee hit window and runs the projectile attack transaction.
- **Hit executors.** An executor decides whether a collision damages something. Its melee variant has a time to live.
- **Projectiles.** Each physics step ends in one of three states (hit, over range, moving). The model also covers collision handling and forward and targeted creation.
- **The enemy AI state machine.** It pursues the player, gives up on loss conditions, attacks on a cadence, chooses between melee and ranged by distance, and walks back to its start.
- **Pickups.** An ammo refiller is collected once. A stats restorer keeps restoring until its pool is full.

Every operation is a pure function on immutable records. It returns the new state together with the notifications the C# code raises, in order, as a `seq<Event>` (module `Events`).

The engine's inputs become parameters:

- random draws (`DamageDraws`, `Picks`, a draw index);
- the clock (`now`) and the physics step (`dt`);
- distances, line-of-sight results (`Sight`) and pose comparisons (`Pose`);
- the collider's resolved components (`Collider`, or the collecting `Attacker`).

Movement and rotation are not computed. They appear as request events: `Translated`, `Aimed`, `FaceTarget`, `MoveTowardTarget`, `TurnTowardStart`, `MoveTowardStart`, `RotateToStart`.

C# `int` is the subset type `Int32`. Unchecked additions and subtractions are written with `Wrap`, which wraps modulo 2^32 into the signed range.

Modules, one per source component:

| module | file | source |
|---|---|---|
| `Numerics`, `Options`, `Events` | numerics.dfy, options.dfy, events.dfy | shared types |
| `BarStats` | bar_stats.dfy | ObservableBarStats |
| `Attacks` | attack.dfy | Attack and its kinds |
| `Entities` | entity.dfy | Entity |
| `AttackSets` | attacks_set.dfy | AttacksSet |
| `Executors` | executor.dfy | AttackExecutorOnHit, CloseAttackExecutorOnHit |
| `Projectiles` | projectile.dfy | Projectile, ForwardProjectile, TargetedProjectile |
| `Attackers` | attacker.dfy | Attacker |
| `Enemies` | enemy.dfy | AttackerEnemy, FightingBackEnemy |
| `Pickups` | pickups.dfy | AmmoRefiller, StatsRestorer |

Modelling decisions:

- **Ammo capacity.** A kind's maximum is `AmmoCap = UnlimitedZero | UnlimitedInfinity | Limited(cap)`. The two unlimited cases are kept apart because `GetAmmoCount` reads them differently: `(int)0` is 0, while the cast of infinity has no defined value. `cap` is the `(int)` cast of the configured float and is not required to be positive, because nothing in the inspector prevents a negative maximum.
- **Attacker hit handler.** The handler subscribes itself to a hit and unsubscribes after the first hit. This is modelled by the executor's `attackerListens` flag.
- **Targeted creation.** `TargetedProjectile.Create` does not check whether the target is alive; only a missing target is refused. The model follows the code.
- **`SetMaximumValue`.** It is modelled as written:
  - its guard compares the *current* value with the new maximum;
  - it divides before multiplying, so a pool that is not full drops to 0;
  - its notification carries the new current value instead of the new maximum;
  - on a pool whose maximum is 0 it divides by zero, which is modelled as `None`.
- **Attack cadence.** In `AttackMove`, a failed ranged attempt advances the attack timer by `dt` before the melee attempt of the same step. So the melee attempt may fire one step early (lemma `FailedRangedAdvancesMeleeCadence`).
- **Critical roll.** `Random.Range(0f, 1f)` includes both ends, so a roll of exactly 0 is critical even at probability 0.

## Model

| member | source | states |
|---|---|---|
| BarStats.Awake | Assets/CherryStudio/Combat/Scripts/EntityBar/ObservableBarStats.cs:52-62 | the maximum becomes its absolute value, the pool starts full with zero idle time, and the last-frame and last-raised records equal the starting values |
| BarStats.ResetIdleTime | Assets/CherryStudio/Combat/Scripts/EntityBar/ObservableBarStats.cs:67-70 | the idle time becomes 0 and nothing else changes |
| BarStats.FiredActions | Assets/CherryStudio/Combat/Scripts/EntityBar/ObservableBarStats.cs:115-120 | an action fires exactly when some trigger carrying it has a threshold at least the requested ratio |
| BarStats.FiredActionsSingle | Assets/CherryStudio/Combat/Scripts/EntityBar/ObservableBarStats.cs:116-119 | one trigger fires its action iff its threshold is at least the ratio |
| BarStats.FiredActionsAppend | Assets/CherryStudio/Combat/Scripts/EntityBar/ObservableBarStats.cs:115-120 | the triggers of a concatenated list fire the first part's actions, then the second's: one firing per matching trigger, in list order |
| BarStats.SetCurrentValue | Assets/CherryStudio/Combat/Scripts/EntityBar/ObservableBarStats.cs:99-122 | the value stays within [0, maximum]; a pool with maximum 0 and a request equal to the current value change nothing; otherwise the value is the clamped request, `(old, new)` is notified first, idle time resets, the last raised value is recorded, and then one action is raised per trigger at or above the unclamped ratio, in trigger order |
| BarStats.RestoreFully | Assets/CherryStudio/Combat/Scripts/EntityBar/ObservableBarStats.cs:127-130 | the pool ends full and notifies iff it was not full |
| BarStats.Decrease | Assets/CherryStudio/Combat/Scripts/EntityBar/ObservableBarStats.cs:159-162 | the request is `SetCurrentValue(current - n)` with unchecked subtraction, so it inherits that contract: the value drops by exactly n when that stays in range and otherwise clamps; on a pool with a positive maximum a non-zero decrease notifies `(old, new)` first, resets idle time and records the raised value; a zero decrease is a no-op |
| BarStats.Increase | Assets/CherryStudio/Combat/Scripts/EntityBar/ObservableBarStats.cs:168-171 | the request is `SetCurrentValue(current + n)` with unchecked addition, so it inherits that contract: the value rises by exactly n when that stays in range and otherwise clamps; on a pool with a positive maximum a non-zero increase notifies `(old, new)` first, resets idle time and records the raised value; a zero increase is a no-op |
| BarStats.SetMaximumValue | Assets/CherryStudio/Combat/Scripts/EntityBar/ObservableBarStats.cs:136-153 | a non-positive maximum, or one equal to the current value, changes nothing; otherwise the maximum becomes v, a full pool stays full, a pool that is not full drops to 0, and a single notification is raised |
| BarStats.UpdateStatsFrame | Assets/CherryStudio/Combat/Scripts/EntityBar/ObservableBarStats.cs:76-93 | values are untouched; a change is re-raised iff it differs from both the last frame and the last raised value, the current value before the maximum; idle time accumulates unless a change is re-raised; this frame's values are recorded |
| BarStats.DecreaseThenIncreaseRestores | Assets/CherryStudio/Combat/Scripts/EntityBar/ObservableBarStats.cs:159-171 | a decrease followed by an increase of the same amount restores the value when the decrease did not clamp |
| BarStats.DecreaseEmptyStillNotifies | Assets/CherryStudio/Combat/Scripts/EntityBar/ObservableBarStats.cs:107-113 | decreasing an empty pool still notifies `(0, 0)` and resets idle time |
| BarStats.TriggersFireOnIncrease | Assets/CherryStudio/Combat/Scripts/EntityBar/ObservableBarStats.cs:115-120 | a threshold action fires on an increase whose target ratio is at or below the threshold |
| BarStats.SetCurrentValueIdempotent | Assets/CherryStudio/Combat/Scripts/EntityBar/ObservableBarStats.cs:107 | repeating an in-range request is a no-op |
| BarStats.NoDuplicateNotificationAfterSet | Assets/CherryStudio/Combat/Scripts/EntityBar/ObservableBarStats.cs:80-84 | a change already notified by a request is not notified again by the next frame update |
| BarStats.RescaleIsReportedByNextFrame | Assets/CherryStudio/Combat/Scripts/EntityBar/ObservableBarStats.cs:144-152 | the value change caused by a rescale is notified by the next frame update, and not by the frame after |
| BarStats.SecondFrameIsQuiet | Assets/CherryStudio/Combat/Scripts/EntityBar/ObservableBarStats.cs:76-93 | two frame updates in a row: the second raises nothing |
| Entities.IsAlive | Assets/CherryStudio/Combat/Scripts/Entities/Base/Entity.cs:24 | an entity without a life pool is alive; one with a pool is dead exactly when the pool reads 0 |
| Entities.DamageAmount | Assets/CherryStudio/Combat/Scripts/Entities/Base/Entity.cs:41-53 | the pool decreases by the amount; `onAttacked` and `AfterDamaged` are always raised after the pool's notifications, even without a pool; after them come exactly `onDeath`, `onEntityDied` and `AfterDeath` iff the pool reads 0, and nothing otherwise |
| Entities.DamageByAttack | Assets/CherryStudio/Combat/Scripts/Entities/Base/Entity.cs:30-35 | one damage draw is taken and exactly that amount is applied, after the critical-hit notification |
| Entities.Heal | Assets/CherryStudio/Combat/Scripts/Entities/Base/Entity.cs:59-62 | healing is an increase of the life pool; an entity without a pool is unchanged |
| Entities.HealFully | Assets/CherryStudio/Combat/Scripts/Entities/Base/Entity.cs:67-70 | exactly `RestoreFully` on the life pool: nothing else of the entity changes and its notifications are the pool's, tagged as life; the pool ends full, and an entity with a positive maximum ends alive; without a pool nothing happens |
| Entities.UpdateEntity | Assets/CherryStudio/Combat/Scripts/Entities/Base/Entity.cs:72-75 | the life pool goes through `UpdateStatsFrame` and its re-raised notifications are raised as life notifications; nothing else of the entity changes; the life value and maximum are kept, so whether the entity is alive is too |
| Entities.NoPoolNeverDies | Assets/CherryStudio/Combat/Scripts/Entities/Base/Entity.cs:41-53 | an entity without a life pool stays alive and raises only `onAttacked` and `AfterDamaged` |
| Entities.DeathRepeatsOnEmptyPool | Assets/CherryStudio/Combat/Scripts/Entities/Base/Entity.cs:47-52 | damaging an entity already at 0 raises the death notifications again |
| Entities.LethalDamageThreshold | Assets/CherryStudio/Combat/Scripts/Entities/Base/Entity.cs:41-52 | damage kills iff it is at least the remaining life |
| Entities.DamageThenHealRestores | Assets/CherryStudio/Combat/Scripts/Entities/Base/Entity.cs:41-62 | a heal of the same amount undoes damage that did not clamp |
| Attacks.GetNonCriticalDamage | Assets/CherryStudio/Combat/Scripts/Entities/Attack/Attack.cs:85-88 | the damage lies in [minimum, maximum), or equals the minimum when the bounds are equal |
| Attacks.GetCriticalHitDamage | Assets/CherryStudio/Combat/Scripts/Entities/Attack/Attack.cs:94-97 | critical damage is a non-critical draw plus the extra draw, so it is at least the sum of both floors |
| Attacks.GetDamage | Assets/CherryStudio/Combat/Scripts/Entities/Attack/Attack.cs:66-79 | a roll is critical iff chance <= probability; `onCriticalHit` is raised exactly then; the amount is the critical or the non-critical damage accordingly |
| Attacks.CertainCriticalAlwaysCrits | Assets/CherryStudio/Combat/Scripts/Entities/Attack/Attack.cs:68-74 | a probability of 1 always crits |
| Attacks.NonCriticalStaysBelowMaximum | Assets/CherryStudio/Combat/Scripts/Entities/Attack/Attack.cs:85-88 | a non-critical hit never reaches the exclusive maximum and raises nothing |
| Attacks.CriticalReachesBothFloors | Assets/CherryStudio/Combat/Scripts/Entities/Attack/Attack.cs:94-97 | a critical hit deals at least both floors combined |
| Attacks.ZeroRollCritsAtZeroProbability | Assets/CherryStudio/Combat/Scripts/Entities/Attack/Attack.cs:68-70 | the inclusive roll of 0 is critical even at probability 0 |
| Attacks.DegenerateRangeIsDeterministic | Assets/CherryStudio/Combat/Scripts/Entities/Attack/Attack.cs:85-88 | a range with equal bounds deals exactly that amount |
| Attacks.IsTagAttackable | Assets/CherryStudio/Combat/Scripts/Entities/Attack/Attack.cs:55-60 | a missing or empty tag list accepts every tag; a non-empty list accepts exactly its own tags |
| AttackSets.FirstByName | Assets/CherryStudio/Combat/Scripts/Entities/Attack/AttacksSet.cs:57 | the scan returns nothing iff no attack has the name, and otherwise the first attack in list order with that name |
| AttackSets.BuildIndex | Assets/CherryStudio/Combat/Scripts/Entities/Attack/AttacksSet.cs:22-35 | the index has exactly the list's names as keys, each mapped to the first attack with that name |
| AttackSets.InitializeAttacks | Assets/CherryStudio/Combat/Scripts/Entities/Attack/AttacksSet.cs:20-36 | after initialisation the index holds, for every name, the attack the linear scan finds |
| AttackSets.GetRandomAttack | Assets/CherryStudio/Combat/Scripts/Entities/Attack/AttacksSet.cs:38-48 | nothing iff the set is empty; otherwise an element of the set |
| AttackSets.GetAttackByName | Assets/CherryStudio/Combat/Scripts/Entities/Attack/AttacksSet.cs:50-74 | the index answers when it has the name; a missing index or a missing key falls back to the scan |
| AttackSets.GetAttackAt | Assets/CherryStudio/Combat/Scripts/Entities/Attack/AttacksSet.cs:76-86 | an in-range position returns that element, a position below or above the range returns the first or last element, and an empty set fails |
| AttackSets.IndexedLookupMatchesScan | Assets/CherryStudio/Combat/Scripts/Entities/Attack/AttacksSet.cs:50-74 | with a freshly built index, lookup by name agrees with the scan for every name |
| AttackSets.LookupMissesOnlyUnknownNames | Assets/CherryStudio/Combat/Scripts/Entities/Attack/AttacksSet.cs:54-73 | with no index or a current one, lookup fails iff no attack has the name |
| AttackSets.StaleIndexCanReturnRemovedAttack | Assets/CherryStudio/Combat/Scripts/Entities/Attack/AttacksSet.cs:59 | an index left from an older list can return an attack no longer in the list |
| Executors.ResolveEntity | Assets/CherryStudio/Combat/Scripts/Entities/Weapon/AttackExecutor/AttackExecutorOnHit.cs:64 | the collider's own entity is preferred, then a parent's, then a child's |
| Executors.NewExecutor | Assets/CherryStudio/Combat/Scripts/Entities/Weapon/AttackExecutor/AttackExecutorOnHit.cs:32-45 | an executor exists iff both the attack and the attacker are given, and it records both with the current time |
| Executors.DamageCollider | Assets/CherryStudio/Combat/Scripts/Entities/Weapon/AttackExecutor/AttackExecutorOnHit.cs:62-80 | a hit happens iff the resolved entity exists, is not the attacker, is alive and has an accepted tag; then the damage, `afterAttack`, the hit action and `onAttackHit` happen in that order, with `onKill` iff the target died; a miss changes nothing |
| Executors.CloseDamageCollider | Assets/CherryStudio/Combat/Scripts/Entities/Weapon/AttackExecutor/CloseAttackExecutorOnHit.cs:25-33 | after the time to live nothing happens; before it, the base behaviour applies |
| Executors.TimeToLivePassed | Assets/CherryStudio/Combat/Scripts/Entities/Weapon/AttackExecutor/CloseAttackExecutorOnHit.cs:16-18 | a non-melee executor has always expired; a melee window has expired iff both the 0.3 s floor and its own hit time have elapsed since it started |
| Executors.HitWindowFloor | Assets/CherryStudio/Combat/Scripts/Entities/Weapon/AttackExecutor/CloseAttackExecutorOnHit.cs:16-18 | a hit window shorter than 0.3 s stays open exactly 0.3 s |
| Executors.ExpiredWindowNeverHits | Assets/CherryStudio/Combat/Scripts/Entities/Weapon/AttackExecutor/CloseAttackExecutorOnHit.cs:25-30 | once expired, a window hits nothing at any later time |
| Executors.NeverHitsOwnAttacker | Assets/CherryStudio/Combat/Scripts/Entities/Weapon/AttackExecutor/AttackExecutorOnHit.cs:66-69 | the attacker is never damaged by its own attack |
| Executors.DeterministicMeleeHit | Assets/CherryStudio/Combat/Scripts/Entities/Weapon/AttackExecutor/CloseAttackExecutorOnHit.cs:25-33 | inside the window, a fixed-damage hit on an eligible target lowers its life by exactly that damage |
| Projectiles.MovementUpdate | Assets/CherryStudio/Combat/Scripts/Entities/Weapon/Projectile/TargetedProjectile/TargetedProjectile.cs:46-59 | every step translates; a targeted projectile re-aims, and requests its destruction iff the target is dead, without returning early |
| Projectiles.FixedUpdate | Assets/CherryStudio/Combat/Scripts/Entities/Weapon/Projectile/ProjectileBase/Projectile.cs:43-59 | a hit projectile does nothing; within its maximum distance (or with an infinite one) it moves; beyond it, it is only destroyed |
| Projectiles.OnCollision | Assets/CherryStudio/Combat/Scripts/Entities/Weapon/Projectile/ProjectileBase/Projectile.cs:71-94 | without an executor, or on the attacker's own collider, nothing happens; a successful hit sets `wasHit`, raises `onDamaging` after the executor's effects, and requests destruction iff `destroyAfterHit`; a failed hit leaves everything unchanged |
| Projectiles.CreateForward | Assets/CherryStudio/Combat/Scripts/Entities/Weapon/Projectile/ForwardProjectile/ForwardProjectile.cs:18-30 | the projectile carries an executor for the attack and the attacker and flies forward |
| Projectiles.CreateTargeted | Assets/CherryStudio/Combat/Scripts/Entities/Weapon/Projectile/TargetedProjectile/TargetedProjectile.cs:21-44 | nothing iff the target, attack or attacker is missing or the target is beyond a cap that is neither 0 nor infinite; otherwise the projectile homes on the target with an executor for the attack and attacker |
| Projectiles.CapBoundary | Assets/CherryStudio/Combat/Scripts/Entities/Weapon/Projectile/TargetedProjectile/TargetedProjectile.cs:26-28 | a cap of 0 or infinity imposes no limit, and a target exactly at the cap is in reach |
| Projectiles.HitProjectileIsInert | Assets/CherryStudio/Combat/Scripts/Entities/Weapon/Projectile/ProjectileBase/Projectile.cs:45-48 | after a hit, every later step does nothing |
| Projectiles.KeptProjectileHitsAgain | Assets/CherryStudio/Combat/Scripts/Entities/Weapon/Projectile/ProjectileBase/Projectile.cs:84-93 | a projectile not destroyed after a hit still damages the next eligible collider |
| Attackers.PayMana | Assets/CherryStudio/Combat/Scripts/Entities/Base/Attacker.cs:55 | the mana pool, if any, drops by exactly the cost when that is affordable; a free attack raises nothing |
| Attackers.DoCloseAttack | Assets/CherryStudio/Combat/Scripts/Entities/Base/Attacker.cs:50-64 | succeeds iff `CanAttack`; on success `beforeAttack` is raised, mana is paid and a fresh listened hit window is pending; on failure nothing changes |
| Attackers.DecreaseAttackAmmo | Assets/CherryStudio/Combat/Scripts/Entities/Base/Attacker.cs:285-300 | unlimited kinds are untouched; the first shot seeds the maximum minus 1; later shots count down, never below 0; other kinds keep their entries |
| Attackers.GetAmmoCount | Assets/CherryStudio/Combat/Scripts/Entities/Base/Attacker.cs:121-144 | melee reads 0, a kind with an entry reads the entry, and a kind without one reads its configured maximum |
| Attackers.RefillAmmo | Assets/CherryStudio/Combat/Scripts/Entities/Base/Attacker.cs:152-189 | refills iff the attack is a limited projectile kind with an entry; a count of 0 resets to the maximum; any other count adds and clamps, to exactly the sum within [0, maximum], to the maximum above it and to 0 below 0; other entries are unchanged |
| Attackers.RefillAllAmmos | Assets/CherryStudio/Combat/Scripts/Entities/Base/Attacker.cs:195-210 | the ledger ends empty and the refill is reported iff it was non-empty |
| Attackers.Commit | Assets/CherryStudio/Combat/Scripts/Entities/Base/Attacker.cs:269-277 | once a projectile exists: `beforeAttack` is raised, the attacker listens to its hits, mana is paid and one ammo is spent |
| Attackers.DoRangedAttack | Assets/CherryStudio/Combat/Scripts/Entities/Base/Attacker.cs:74-80 | fires iff a prefab exists, the attack is allowed and ammo remains; costs are paid exactly when it fires; a refused shot changes nothing |
| Attackers.DoTargetedAttack | Assets/CherryStudio/Combat/Scripts/Entities/Base/Attacker.cs:66-72 | fires iff the gate passes and the projectile can be created for the target; costs are paid only after creation |
| Attackers.OnCollisionEnter | Assets/CherryStudio/Combat/Scripts/Entities/Base/Attacker.cs:217-221 | the hit window is offered the collision and then always dropped; a target is damaged iff the window was pending and the collider eligible |
| Attackers.RestoreMana | Assets/CherryStudio/Combat/Scripts/Entities/Base/Attacker.cs:86-89 | exactly `Increase` on the mana pool, if any, with that pool's notifications tagged as mana; nothing else changes |
| Attackers.RestoreManaFully | Assets/CherryStudio/Combat/Scripts/Entities/Base/Attacker.cs:94-97 | exactly `RestoreFully` on the mana pool, if any, with its notifications tagged as mana: the pool ends full with the same maximum, and something is raised iff it was not full; nothing else changes |
| Attackers.FirstByNameAppend | Assets/CherryStudio/Combat/Scripts/Entities/Base/Attacker.cs:39-48 | in the concatenated attack list, the first match comes from the earlier part whenever that part has one |
| Attackers.GetAttack | Assets/CherryStudio/Combat/Scripts/Entities/Base/Attacker.cs:114-117 | the first attack with the name, with melee before ranged before targeted; nothing iff no set has the name |
| Attackers.CanAttack | Assets/CherryStudio/Combat/Scripts/Entities/Base/Attacker.cs:233-252 | an attack needs a given attack and a living attacker; with a non-negative cost it is allowed iff there is no mana pool or the cost does not exceed the mana |
| Attackers.HasCloseAttackPending | Assets/CherryStudio/Combat/Scripts/Entities/Base/Attacker.cs:32 | pending only with a melee window; a melee window is pending iff the 0.3 s floor or its own hit time has not yet elapsed |
| Attackers.HaveEnoughAmmo | Assets/CherryStudio/Combat/Scripts/Entities/Base/Attacker.cs:302-317 | only a limited kind that has been fired before can run out; such a kind has ammo iff its count is positive |
| Attackers.AllAttacks | Assets/CherryStudio/Combat/Scripts/Entities/Base/Attacker.cs:39-48 | holds every attack of the three sets and nothing else, as many as the sets together |
| Attackers.CanAttackIffAffordable | Assets/CherryStudio/Combat/Scripts/Entities/Base/Attacker.cs:233-252 | with a non-negative cost, an attack is allowed iff the attacker is alive and the cost does not exceed the mana (or there is no mana pool) |
| Attackers.AmmoCountsDown | Assets/CherryStudio/Combat/Scripts/Entities/Base/Attacker.cs:285-317 | from a fresh ledger, k shots leave maximum − k, and ammo remains iff k is below the maximum |
| Attackers.ExhaustedStaysEmpty | Assets/CherryStudio/Combat/Scripts/Entities/Base/Attacker.cs:291-294 | an exhausted kind stays at 0 and keeps being refused |
| Attackers.ThreeShotsThenRefused | Assets/CherryStudio/Combat/Scripts/Entities/Base/Attacker.cs:254-300 | with a maximum of 3, shots read 2, 1, 0, and the fourth is refused |
| Attackers.RefillAllRestoresMaximum | Assets/CherryStudio/Combat/Scripts/Entities/Base/Attacker.cs:195-210 | after a full refill every kind reads its maximum, and a second full refill reports nothing |
| Attackers.RefillZeroRestoresMaximum | Assets/CherryStudio/Combat/Scripts/Entities/Base/Attacker.cs:176-179 | a refill of count 0 after any number of shots restores the maximum |
| Attackers.WindowConsumedByFirstCollision | Assets/CherryStudio/Combat/Scripts/Entities/Base/Attacker.cs:217-221 | after one collision no melee attack is pending, and a second collision does nothing |
| Attackers.SpentManaIsRestored | Assets/CherryStudio/Combat/Scripts/Entities/Base/Attacker.cs:86-89 | a restore of the cost gives back the mana a melee attack spent |
| Attackers.MeleeExample | Assets/CherryStudio/Combat/Scripts/Entities/Base/Attacker.cs:50-64 | 10 mana, a melee attack costing 5 and dealing 5, on a target with 20 life: the target ends at 15, the attacker at 5 mana, and the window is gone |
| Enemies.StopAttackingPlayer | Assets/CherryStudio/Combat/Scripts/Entities/Enemy/AttackerEnemy.cs:66-83 | pursuit stops; the walk back is set iff it was already set or a pursuit was running; the walk-back delay restarts |
| Enemies.OnPlayerDied | Assets/CherryStudio/Combat/Scripts/Entities/Enemy/AttackerEnemy.cs:125-128 | the player's death stops the pursuit |
| Enemies.AttackPlayer | Assets/CherryStudio/Combat/Scripts/Entities/Enemy/AttackerEnemy.cs:88-96 | a pursuit starts iff none is running and the player is alive, with zeroed follow and attack timers; otherwise nothing changes |
| Enemies.AttackIfNeeded | Assets/CherryStudio/Combat/Scripts/Entities/Enemy/AttackerEnemy.cs:266-299 | an attack happens only when the timer has reached the gap and no melee window is pending; a ready attempt is exactly the attacker's `DoCloseAttack` (only within range), `DoRangedAttack` or `DoTargetedAttack`, with its attacker, notifications and projectile; success zeroes the timer, and failure or skip advances it by dt and changes nothing else |
| Enemies.AttackEitherRanged | Assets/CherryStudio/Combat/Scripts/Entities/Enemy/AttackerEnemy.cs:243-264 | with neither attack nothing happens and no timer moves; with one attack that one is tried; with both the coin chooses |
| Enemies.ResetIdleTimes | Assets/CherryStudio/Combat/Scripts/Entities/Enemy/AttackerEnemy.cs:176-184 | only the idle times of the life and mana pools change |
| Enemies.FarMove | Assets/CherryStudio/Combat/Scripts/Entities/Enemy/AttackerEnemy.cs:186-193 | ranged or targeted is tried first; if that attacked, it is the whole step; otherwise melee is tried on the enemy that attempt left, and the step attacks iff melee does; the enemy moves toward the player iff neither attacked; an attack needs the timer to reach the gap, possibly after a same-step advance |
| Enemies.AttackMove | Assets/CherryStudio/Combat/Scripts/Entities/Enemy/AttackerEnemy.cs:170-202 | idle times reset, then one attack of each kind is picked; far from the player the step is `FarMove`; near with a melee attack it is that melee attempt alone; near without one it is the ranged-or-targeted attempt; the enemy moves toward the player iff it is far and did not attack |
| Enemies.BackToStart | Assets/CherryStudio/Combat/Scripts/Entities/Enemy/AttackerEnemy.cs:204-241 | nothing happens unless walking back; until the delay is exceeded only the delay timer advances and no movement is requested; after it, away from the start position the enemy turns toward it until facing it and then walks; at the start position it requests the start rotation until reached; the walk ends iff the enemy is at both the start position and rotation |
| Enemies.WithFrameUpdate | Assets/CherryStudio/Combat/Scripts/Entities/Enemy/AttackerEnemy.cs:137 | each step first does the life pool's frame bookkeeping |
| Enemies.UpdateAttackerEnemy | Assets/CherryStudio/Combat/Scripts/Entities/Enemy/AttackerEnemy.cs:135-168 | the frame bookkeeping always runs first and its notifications come first; without a player, or when dead, nothing more happens; not pursuing, the step is the walk back when configured and nothing more otherwise; pursuing, the follow timer advances, a loss condition (distance or follow time reached, or the line blocked) stops the pursuit and starts the walk back, and otherwise the enemy faces the player and the step is `AttackMove` |
| Enemies.TakeDamage | Assets/CherryStudio/Combat/Scripts/Entities/Enemy/FightingBackEnemy.cs:8-13 | the damage is applied to the enemy's own entity with its notifications; a fighting-back enemy then runs `AttackPlayer` (pursuing a living player with fresh follow and attack timers); nothing else of the enemy changes |
| Enemies.RetagSet | Assets/CherryStudio/Combat/Scripts/Entities/Enemy/AttackerEnemy.cs:119-122 | every listed attack, and every index entry that is a listed attack, now targets only the given tag; the index keys are unchanged |
| Enemies.RetagCommutesWithIndex | Assets/CherryStudio/Combat/Scripts/Entities/Enemy/AttackerEnemy.cs:119-122 | retagging the list and then indexing gives the same index as indexing and then retagging |
| Enemies.Start | Assets/CherryStudio/Combat/Scripts/Entities/Enemy/AttackerEnemy.cs:98-123 | without a player it fails; otherwise only the three attack sets change: every attack of every set, in order, now targets exactly the player's tag |
| Enemies.RetagKeepsIndexConsistent | Assets/CherryStudio/Combat/Scripts/Entities/Enemy/AttackerEnemy.cs:119-122 | an index built from the list is still the index of the retagged list |
| Enemies.DistanceLossExample | Assets/CherryStudio/Combat/Scripts/Entities/Enemy/AttackerEnemy.cs:158-164 | with a maximum follow distance of 10 and the player at 15, the enemy stops, heads back and attacks nothing |
| Enemies.FailedRangedAdvancesMeleeCadence | Assets/CherryStudio/Combat/Scripts/Entities/Enemy/AttackerEnemy.cs:186-193 | a failed ranged attempt lets the melee attempt of the same step fire one step before the gap alone would allow |
| Enemies.MeleeOnlyInRange | Assets/CherryStudio/Combat/Scripts/Entities/Enemy/AttackerEnemy.cs:282-285 | a melee attack happens only within its range, and leaves a hit window pending |
| Enemies.ReturnCompletes | Assets/CherryStudio/Combat/Scripts/Entities/Enemy/AttackerEnemy.cs:233-240 | after the delay, at the start position and rotation, the walk back ends without restarting pursuit |
| Enemies.PursuitKeepsWalkBackFlag | Assets/CherryStudio/Combat/Scripts/Entities/Enemy/AttackerEnemy.cs:88-96 | restarting a pursuit does not clear the walk-back flag |
| Enemies.FightsBackEvenWhenKilled | Assets/CherryStudio/Combat/Scripts/Entities/Enemy/FightingBackEnemy.cs:8-13 | a fighting-back enemy starts pursuing even on a hit that kills it |
| Pickups.RequestedRefill | Assets/CherryStudio/Combat/Scripts/Entities/Weapon/Projectile/AmmoRefiller.cs:53-60 | an empty name refills everything; a name refills the kind of the first attack with that name; an unknown name refills nothing |
| Pickups.CollectAmmo | Assets/CherryStudio/Combat/Scripts/Entities/Weapon/Projectile/AmmoRefiller.cs:43-68 | only an uncollected pickup and an accepted collector act; the pickup becomes collected and raises `onCollected` iff the refill changed something |
| Pickups.CollectStats | Assets/CherryStudio/Combat/Scripts/Entities/Potion/StatsRestorer.cs:42-49 | only a pool that is not full and an allowed tag act; `onCollected` comes before the increase's notifications |
| Pickups.CollectedOnlyOnce | Assets/CherryStudio/Combat/Scripts/Entities/Weapon/Projectile/AmmoRefiller.cs:47-66 | a collected pickup does nothing to any later collector |
| Pickups.NoOpRefillStaysAvailable | Assets/CherryStudio/Combat/Scripts/Entities/Weapon/Projectile/AmmoRefiller.cs:62-66 | a refill that changes nothing leaves the pickup available |
| Pickups.ReservedPickupIgnoresOthers | Assets/CherryStudio/Combat/Scripts/Entities/Weapon/Projectile/AmmoRefiller.cs:47-49 | a pickup reserved for one attacker ignores all others |
| Pickups.RestoreOnce | Assets/CherryStudio/Combat/Scripts/Entities/Potion/StatsRestorer.cs:44-47 | one allowed collection raises the pool by the amount, up to its maximum |
| Pickups.RestoresUntilFull | Assets/CherryStudio/Combat/Scripts/Entities/Potion/StatsRestorer.cs:42-49 | k allowed collections raise the pool to min(current + k·amount, maximum), so it keeps restoring until full |

## Left out

- Console logging (`Debug.Log`, `LogWarning`, `LogError`) is not modelled; the branches around it are.
- Floating-point arithmetic: times, distances, ratios and probabilities are mathematical reals. Float rounding, and the comparison of a float ratio with a threshold, are exact.
- Geometry is left to the engine: distances, `Physics.Linecast`, `Vector3.MoveTowards`, `Quaternion.Lerp` with its 1° snapping, `LookRotation` and the 0.001 position snap. The model receives distances, line-of-sight results and pose comparisons as inputs and emits movement requests.
- `UnityEngine.Random`: draws are parameters constrained to the generator's range. For a descending integer range (`minimum > maximum`), the draw is only constrained to lie between the bounds.
- Unity's overloaded null: a destroyed object comparing equal to null is not modelled. A targeted projectile whose target object was destroyed is not modelled either.
- UnityEvent and C# event dispatch: listeners are not run; each invocation is an event in the trace. The attacker's own `AfterAttackHit` handler is the exception. It is modelled inside the executor (`onKill` and the unsubscription).
- Projectiles.CreateForward: requires a configured prefab. Instantiating a null prefab throws, and the only caller checks for the prefab first.
- Projectiles.CreateTargeted: requires a configured prefab for a given attack. Instantiating a null prefab throws, and the only caller (`DoTargetedAttack`, gated by `MayFire`) checks for the prefab first.
- Attackers.GetAmmoCount: returns `None` for an infinite maximum with no ledger entry, because the `(int)` cast of infinity has no defined value.
- The `ammoCount == Mathf.Infinity` test in `RefillAmmo` compares an `int` with infinity and is never true. It is left out of the model.
- Pickups.CollectStats: requires a configured pool (the `pool` field cannot be missing). A restorer without one throws a null reference at `statsToRestore.IsFull` on every collision, before the tag test, so the null-conditional `Increase` call never takes effect. The model leaves that throwing configuration out.
- Pickups.RestoresUntilFull: stated for a positive amount, a positive maximum, and a maximum plus amount that does not overflow 32 bits; the wrapped cases are covered one step at a time by `CollectStats`.
- BarStats.Awake: requires a maximum other than `int.MinValue`, whose absolute value throws.
- Executors.NewExecutor: a half-constructed executor (missing attack or attacker, fields left unset) is `None`. The constructor's error log is not modelled.
- Enemies.RetagSet: index entries that are list elements stand in for the shared attack objects. Object identity is not modelled, so an index entry that is a different object equal to a list element would also be retagged.
- The enemy's `speed` and `turnSpeed` only scale movement and rotation, so they are not part of the configuration.
- `GetRandomCloseAttack`, `GetRandomRangedAttack` and `GetRandomTargetedAttack` delegate to `AttacksSet.GetRandomAttack` (`AttackSets.GetRandomAttack`). `AttackMove` calls it on each set.
- `StopAttackingPlayer`'s `targetRotationToStart` computation is geometry and is not modelled; `Pose.facingStart` is its comparison result.
- Enemies.Start: the source throws a null reference when no player is found; this is modelled as `None`. Locating the player (`EntitiesLocator`, `FindGameObjectWithTag`) and the death-event subscription are engine wiring.
- Other parts of the package are not part of this model:
  - the UI and demo scripts (StatsBar, StatsChangePopup and its instantiator, AmmoBar, ScreenTransformSnapper, DemoPlayer, ArrowsMover, Follower, PlayerCar, Player, EnemyAI);
  - CollisionNotifier (component registration);
  - EntitiesLocator (a static service locator);
  - FightingRangeEnemy (a physics linecast trigger);
  - the data-only attack and projectile-property classes, whose fields are record fields here.

=== FILE: attack.dfy ===
/**
 The authored attack: damage range, critical-hit parameters, eligible target
 tags, mana cost, and the kind-specific settings of melee, free-aim ranged and
 targeted ranged attacks. Random draws are supplied by the caller and
 constrained to what the engine's generator can return.
 */
module Attacks {
  import opened Numerics
  import opened Options
  import opened Events

  /** `[minimum, maximum)` of an integer draw. */
  datatype DamageRange = DamageRange(minimum: Int32, maximum: Int32)

  datatype CriticalSettings = CriticalSettings(probability: real, extraDamage: DamageRange)

  /** A projectile kind's ammo capacity. The configured float is 0 or
      infinity for unlimited ammo; otherwise `cap` is its `(int)` cast. */
  datatype AmmoCap = UnlimitedZero | UnlimitedInfinity | Limited(cap: Int32)

  /** The settings a projectile prefab carries. */
  datatype ProjectileTemplate = ProjectileTemplate(speed: real, destroyAfterHit: bool, maximumDistance: Extended)

  /** Projectile settings shared by every shot of one kind; `id` keys the ammo ledger. */
  datatype ProjectileProperties = ProjectileProperties(id: string, prefab: Option<ProjectileTemplate>, maxAmmo: AmmoCap)

  datatype AttackKind =
    | Close(maxHitTimeSeconds: real, range: real)
    | Ranged(projectile: ProjectileProperties)
    | Targeted(projectile: ProjectileProperties, targetMaximumDistance: Extended)

  datatype Attack = Attack(
    name: string,
    damage: DamageRange,
    attackTags: Option<seq<string>>,
    critical: CriticalSettings,
    manaCost: Int32,
    kind: AttackKind)

  /** The draws one `GetDamage` call consumes: the critical-hit roll, the base
      damage draw, and the extra-damage draw (used only on a critical hit). */
  datatype DamageDraws = DamageDraws(chance: real, base: Int32, extra: Int32)

  /** The draws are values the engine's generator can return for this attack
      (`Random.Range(0f, 1f)` includes both ends). */
  predicate ValidDraws(a: Attack, d: DamageDraws)
  {
    && 0.0 <= d.chance <= 1.0
    && IntDraw(a.damage.minimum, a.damage.maximum, d.base)
    && IntDraw(a.critical.extraDamage.minimum, a.critical.extraDamage.maximum, d.extra)
  }

  /** `IsTagAttackable`: a missing or empty tag list accepts every tag. */
  predicate IsTagAttackable(a: Attack, tag: string)
    ensures a.attackTags.None? ==> IsTagAttackable(a, tag)
    ensures a.attackTags.Some? && |a.attackTags.value| == 0 ==> IsTagAttackable(a, tag)
    ensures a.attackTags.Some? && |a.attackTags.value| > 0 ==> (IsTagAttackable(a, tag) <==> tag in a.attackTags.value)
  {
    a.attackTags.None? || |a.attackTags.value| == 0 || tag in a.attackTags.value
  }

  /** `GetNonCriticalDamage`: one draw from the damage range. */
  function GetNonCriticalDamage(a: Attack, base: Int32): (r: Int32)
    requires IntDraw(a.damage.minimum, a.damage.maximum, base)
    ensures a.damage.minimum <= a.damage.maximum ==> a.damage.minimum <= r
    ensures a.damage.minimum < a.damage.maximum ==> r < a.damage.maximum
    ensures a.damage.minimum == a.damage.maximum ==> r == a.damage.minimum
  {
    base
  }

  /** `GetCriticalHitDamage`: a non-critical draw plus one draw from the
      extra-damage range, added as unchecked 32-bit integers. */
  function GetCriticalHitDamage(a: Attack, base: Int32, extra: Int32): (r: Int32)
    requires IntDraw(a.damage.minimum, a.damage.maximum, base)
    requires IntDraw(a.critical.extraDamage.minimum, a.critical.extraDamage.maximum, extra)
    ensures MinInt32 <= base + extra <= MaxInt32 ==> r - extra == GetNonCriticalDamage(a, base)
    ensures a.damage.minimum <= a.damage.maximum && a.critical.extraDamage.minimum <= a.critical.extraDamage.maximum
            && MinInt32 <= base + extra <= MaxInt32
            ==> a.damage.minimum + a.critical.extraDamage.minimum <= r
  {
    Wrap(GetNonCriticalDamage(a, base) + extra)
  }

  /** The outcome of one `GetDamage` call. */
  datatype DamageRoll = DamageRoll(amount: Int32, critical: bool, events: seq<Event>)

  /** `GetDamage`: the critical branch is taken iff `chance <= probability`;
      it raises `onCriticalHit` and adds the extra-damage draw. */
  function GetDamage(a: Attack, d: DamageDraws): (r: DamageRoll)
    requires ValidDraws(a, d)
    ensures r.critical <==> d.chance <= a.critical.probability
    ensures r.critical ==> r.events == [CriticalHit(a.name)]
    ensures !r.critical ==> r.events == []
    ensures !r.critical ==> r.amount == GetNonCriticalDamage(a, d.base)
    ensures r.critical ==> r.amount == GetCriticalHitDamage(a, d.base, d.extra)
  {
    if d.chance <= a.critical.probability then
      DamageRoll(GetCriticalHitDamage(a, d.base, d.extra), true, [CriticalHit(a.name)])
    else
      DamageRoll(GetNonCriticalDamage(a, d.base), false, [])
  }

  // ---------------------------------------------------------------------------
  // Properties
  // ---------------------------------------------------------------------------

  /** A probability of 1 (or more) makes every roll critical. */
  lemma CertainCriticalAlwaysCrits(a: Attack, d: DamageDraws)
    requires ValidDraws(a, d) && a.critical.probability >= 1.0
    ensures GetDamage(a, d).critical
    ensures GetDamage(a, d).events == [CriticalHit(a.name)]
  {
  }

  /** A non-critical roll never reaches the exclusive upper bound of the damage range. */
  lemma NonCriticalStaysBelowMaximum(a: Attack, d: DamageDraws)
    requires ValidDraws(a, d) && a.damage.minimum < a.damage.maximum
    requires a.critical.probability < d.chance
    ensures a.damage.minimum <= GetDamage(a, d).amount < a.damage.maximum
    ensures GetDamage(a, d).events == []
  {
  }

  /** A critical roll is at least the damage floor plus the extra-damage floor. */
  lemma CriticalReachesBothFloors(a: Attack, d: DamageDraws)
    requires ValidDraws(a, d) && a.critical.probability >= 1.0
    requires a.damage.minimum <= a.damage.maximum
    requires a.critical.extraDamage.minimum <= a.critical.extraDamage.maximum
    requires MinInt32 <= d.base + d.extra <= MaxInt32
    ensures GetDamage(a, d).amount >= a.damage.minimum + a.critical.extraDamage.minimum
  {
  }

  /** Because the critical-hit roll includes 0, a roll of exactly 0 is critical
      even when the configured probability is 0. */
  lemma ZeroRollCritsAtZeroProbability(a: Attack, d: DamageDraws)
    requires ValidDraws(a, d) && a.critical.probability == 0.0 && d.chance == 0.0
    ensures GetDamage(a, d).critical
  {
  }

  /** A degenerate range `[n, n]` deals exactly `n` on a non-critical roll. */
  lemma DegenerateRangeIsDeterministic(a: Attack, d: DamageDraws)
    requires ValidDraws(a, d) && a.damage.minimum == a.damage.maximum
    requires a.critical.probability < d.chance
    ensures GetDamage(a, d).amount == a.damage.minimum
  {
  }
}

=== FILE: attacker.dfy ===
/**
 The attacking entity: mana gating, the per-kind ammo ledger, the melee hit
 window that the first collision consumes, and the projectile attack
 transaction, whose costs are paid only once a projectile exists.
 */
module Attackers {
  import opened Numerics
  import opened Options
  import opened Events
  import opened BarStats
  import opened Attacks
  import opened AttackSets
  import opened Entities
  import opened Executors
  import opened Projectiles

  /** Remaining ammo per projectile kind, keyed by the kind's id. A kind
      without an entry has never been fired since the last full refill. */
  type AmmoLedger = map<string, Int32>

  datatype Attacker = Attacker(
    self: Entity,
    mana: Option<Pool>,
    closeSet: AttacksSet,
    rangedSet: AttacksSet,
    targetedSet: AttacksSet,
    closeExecutor: Option<Executor>,
    ammo: AmmoLedger)
  {
    /** Valid pools, and each attack set holds attacks of its own kind. */
    predicate Valid()
    {
      && self.Valid()
      && (mana.Some? ==> mana.value.Valid())
      && (forall a :: a in closeSet.attacks ==> a.kind.Close?)
      && (forall a :: a in rangedSet.attacks ==> a.kind.Ranged?)
      && (forall a :: a in targetedSet.attacks ==> a.kind.Targeted?)
    }
  }

  /** `CanAttack`: an attack is given, the attacker is alive, and either
      there is no mana pool, the attack is free, or the mana left after the
      unchecked subtraction is not negative. */
  predicate CanAttack(x: Attacker, a: Option<Attack>)
    ensures CanAttack(x, a) ==> a.Some? && IsAlive(x.self)
    // with a non-negative cost the unchecked subtraction cannot wrap: the cost is affordable
    ensures x.Valid() && a.Some? && a.value.manaCost >= 0 ==>
      (CanAttack(x, a) <==> IsAlive(x.self) && (x.mana.None? || a.value.manaCost <= x.mana.value.current))
  {
    && a.Some?
    && IsAlive(x.self)
    && (x.mana.None? || a.value.manaCost == 0 || Wrap(x.mana.value.current - a.value.manaCost) >= 0)
  }

  /** The mana pool after paying a cost, with the pool's notifications. */
  datatype ManaStep = ManaStep(mana: Option<Pool>, events: seq<Event>)

  /** `manaStats?.Decrease(cost)`. */
  function PayMana(x: Attacker, cost: Int32): (r: ManaStep)
    requires x.Valid()
    ensures r.mana.Some? <==> x.mana.Some?
    ensures r.mana.Some? ==> r.mana.value.Valid() && r.mana.value.maximum == x.mana.value.maximum
    ensures x.mana.Some? && x.mana.value.maximum > 0 && 0 <= cost <= x.mana.value.current ==>
      r.mana.value.current == x.mana.value.current - cost
    ensures cost == 0 ==> r == ManaStep(x.mana, [])
    ensures forall ev :: ev in r.events ==> ev.Stat?
  {
    match x.mana
    case None => ManaStep(None, [])
    case Some(pool) =>
      var step := Decrease(pool, cost);
      ManaStep(Some(step.pool), FromPool(ManaOf(x.self.id), step.events))
  }

  /** The notifications an attack request can raise: `beforeAttack` and the mana pool's. */
  predicate AttackTrace(events: seq<Event>)
  {
    forall ev :: ev in events ==> ev.BeforeAttack? || ev.Stat?
  }

  /** The outcome of an attack request: the attacker afterwards, whether the
      request succeeded, and the notifications. */
  datatype AttackerStep = AttackerStep(attacker: Attacker, succeeded: bool, events: seq<Event>)

  /** `HasCloseAttackPending`: a hit window exists and its time to live has not passed. */
  predicate HasCloseAttackPending(x: Attacker, now: real)
    ensures HasCloseAttackPending(x, now) ==> x.closeExecutor.Some? && x.closeExecutor.value.attack.kind.Close?
    ensures x.closeExecutor.Some? && x.closeExecutor.value.attack.kind.Close? ==>
      (HasCloseAttackPending(x, now) <==>
         now < x.closeExecutor.value.startTime + MinimumHitTime
         || now < x.closeExecutor.value.startTime + x.closeExecutor.value.attack.kind.maxHitTimeSeconds)
  {
    x.closeExecutor.Some? && !TimeToLivePassed(x.closeExecutor.value, now)
  }

  /** `DoCloseAttack`: when the attack is allowed, raise `beforeAttack`, pay
      the mana and replace the hit window by a fresh one the attacker listens
      to; otherwise change nothing. */
  function DoCloseAttack(x: Attacker, a: Option<Attack>, now: real): (r: AttackerStep)
    requires x.Valid()
    requires a.Some? ==> a.value.kind.Close?
    ensures r.attacker.Valid()
    ensures r.succeeded <==> CanAttack(x, a)
    ensures !r.succeeded ==> r == AttackerStep(x, false, [])
    ensures r.succeeded ==>
      && r.attacker == x.(mana := r.attacker.mana, closeExecutor := r.attacker.closeExecutor)
      && r.attacker.closeExecutor == Some(Executor(a.value, x.self.id, now, None, true))
      && r.attacker.mana == PayMana(x, a.value.manaCost).mana
      && HasCloseAttackPending(r.attacker, now)
      && |r.events| > 0
      && r.events[0] == BeforeAttack(a.value.name)
      && r.events[1..] == PayMana(x, a.value.manaCost).events
    ensures AttackTrace(r.events)
    ensures r.succeeded && x.mana.Some? && x.mana.value.maximum > 0 && a.value.manaCost >= 0 ==>
      r.attacker.mana.value.current == x.mana.value.current - a.value.manaCost
  {
    if CanAttack(x, a) then
      var attack := a.value;
      var paid := PayMana(x, attack.manaCost);
      var events := [BeforeAttack(attack.name)] + paid.events;
      assert events[1..] == paid.events;
      AttackerStep(x.(mana := paid.mana, closeExecutor := Some(Executor(attack, x.self.id, now, None, true))), true, events)
    else AttackerStep(x, false, [])
  }

  // ---------------------------------------------------------------------------
  // The ammo ledger
  // ---------------------------------------------------------------------------

  /** The projectile settings of a ranged or targeted attack; none for melee. */
  function ProjectileOf(a: Attack): (r: Option<ProjectileProperties>)
    ensures r.Some? <==> !a.kind.Close?
  {
    match a.kind
    case Close(_, _) => None
    case Ranged(p) => Some(p)
    case Targeted(p, _) => Some(p)
  }

  /** A configured maximum of 0 or infinity means the kind never runs out. */
  predicate IsUnlimited(cap: AmmoCap)
  {
    cap.UnlimitedZero? || cap.UnlimitedInfinity?
  }

  /** `HaveEnoughAmmo`. */
  predicate HaveEnoughAmmo(ammo: AmmoLedger, props: ProjectileProperties)
    // only a limited kind that has been fired before can run out
    ensures !HaveEnoughAmmo(ammo, props) ==> props.maxAmmo.Limited? && props.id in ammo
    ensures props.maxAmmo.Limited? && props.id in ammo ==> (HaveEnoughAmmo(ammo, props) <==> ammo[props.id] > 0)
  {
    IsUnlimited(props.maxAmmo) || props.id !in ammo || ammo[props.id] > 0
  }

  /** `DecreseAttackAmmo`: unlimited kinds are untouched; the first shot of a
      limited kind seeds its entry with one less than the maximum, and later
      shots count the entry down, never below 0. */
  function DecreaseAttackAmmo(ammo: AmmoLedger, props: ProjectileProperties): (r: AmmoLedger)
    ensures IsUnlimited(props.maxAmmo) ==> r == ammo
    ensures !IsUnlimited(props.maxAmmo) ==> r.Keys == ammo.Keys + {props.id}
    ensures forall id :: id in ammo && id != props.id ==> id in r && r[id] == ammo[id]
    ensures props.maxAmmo.Limited? && props.id !in ammo && props.maxAmmo.cap > MinInt32 ==>
      r[props.id] == props.maxAmmo.cap - 1
    ensures props.maxAmmo.Limited? && props.id in ammo && ammo[props.id] > 0 ==>
      r[props.id] == ammo[props.id] - 1
    ensures props.maxAmmo.Limited? && props.id in ammo && MinInt32 < ammo[props.id] <= 0 ==>
      r[props.id] == 0
  {
    match props.maxAmmo
    case Limited(cap) =>
      if props.id in ammo then
        var left := Wrap(ammo[props.id] as int - 1);
        ammo[props.id := if left > 0 then left else 0]
      else ammo[props.id := Wrap(cap as int - 1)]
    case _ => ammo
  }

  /** The value `(int)maxAmmo` reads for a kind without an entry. `None` for
      an infinite maximum, whose cast to `int` the C# language leaves unspecified. */
  function CapReading(cap: AmmoCap): (r: Option<Int32>)
    ensures r.None? <==> cap.UnlimitedInfinity?
  {
    match cap
    case UnlimitedZero => Some(0)
    case UnlimitedInfinity => None
    case Limited(n) => Some(n)
  }

  /** `GetAmmoCount`: 0 for a melee attack, the ledger entry when there is
      one, and the configured maximum otherwise. */
  function GetAmmoCount(ammo: AmmoLedger, a: Attack): (r: Option<Int32>)
    ensures a.kind.Close? ==> r == Some(0)
    ensures !a.kind.Close? && ProjectileOf(a).value.id in ammo ==> r == Some(ammo[ProjectileOf(a).value.id])
    ensures !a.kind.Close? && ProjectileOf(a).value.id !in ammo ==> r == CapReading(ProjectileOf(a).value.maxAmmo)
  {
    match ProjectileOf(a)
    case None => Some(0)
    case Some(props) => if props.id in ammo then Some(ammo[props.id]) else CapReading(props.maxAmmo)
  }

  /** The ledger after a refill request, and whether anything was refilled. */
  datatype Refill = Refill(ammo: AmmoLedger, refilled: bool)

  /** `RefillAmmo(count, attack)`: only a limited projectile kind that has an
      entry is refilled. A count of 0 restores the maximum; any other count
      is added to the entry (unchecked) and clamped to `[0, maximum]`. */
  function RefillAmmo(ammo: AmmoLedger, count: Int32, a: Attack): (r: Refill)
    ensures r.refilled <==> !a.kind.Close? && ProjectileOf(a).value.maxAmmo.Limited? && ProjectileOf(a).value.id in ammo
    ensures !r.refilled ==> r.ammo == ammo
    ensures r.refilled ==>
      var props := ProjectileOf(a).value;
      var cap := props.maxAmmo.cap;
      && r.ammo.Keys == ammo.Keys
      && (forall id :: id in ammo && id != props.id ==> r.ammo[id] == ammo[id])
      && (count == 0 ==> r.ammo[props.id] == cap)
      && (0 <= cap ==> 0 <= r.ammo[props.id] <= cap)
      && (count != 0 && 0 <= ammo[props.id] + count <= cap ==> r.ammo[props.id] == ammo[props.id] + count)
      && (count != 0 && 0 <= cap < ammo[props.id] + count <= MaxInt32 ==> r.ammo[props.id] == cap)
      // the lower bound is checked first, so a negative sum reads 0 whatever the maximum
      && (count != 0 && MinInt32 <= ammo[props.id] + count < 0 ==> r.ammo[props.id] == 0)
  {
    match ProjectileOf(a)
    case None => Refill(ammo, false)
    case Some(props) =>
      if props.maxAmmo.Limited? && props.id in ammo then
        var cap := props.maxAmmo.cap;
        var filled := if count == 0 then cap else Clamp(Wrap(count + ammo[props.id]), 0, cap);
        Refill(ammo[props.id := filled], true)
      else Refill(ammo, false)
  }

  /** `RefillAllAmmosReturnState`: empty the ledger, so every kind reads its
      maximum again, and report whether there was anything to refill. */
  function RefillAllAmmos(ammo: AmmoLedger): (r: Refill)
    ensures r.ammo == map[]
    ensures r.refilled <==> exists id :: id in ammo
  {
    if ammo == map[] then Refill(map[], false)
    else
      var id :| id in ammo;
      Refill(map[], true)
  }

  // ---------------------------------------------------------------------------
  // Projectile attacks
  // ---------------------------------------------------------------------------

  /** The result of a projectile attack: the attacker afterwards, the
      projectile fired (none when the attack failed), and the notifications. */
  datatype ShotStep = ShotStep(attacker: Attacker, projectile: Option<Projectile>, events: seq<Event>)

  /** The gate of `DoProjectileBasedAttack` before creation: a prefab is
      configured, the attack is allowed, and there is ammo left. */
  predicate MayFire(x: Attacker, a: Attack, props: ProjectileProperties)
  {
    props.prefab.Some? && CanAttack(x, Some(a)) && HaveEnoughAmmo(x.ammo, props)
  }

  /** The executor of a fired projectile, with the attacker's hit handler subscribed. */
  function Listening(x: Option<Executor>): (r: Option<Executor>)
    ensures r.Some? <==> x.Some?
    ensures r.Some? ==> r.value == x.value.(attackerListens := true)
  {
    match x
    case None => None
    case Some(e) => Some(e.(attackerListens := true))
  }

  /** The transaction once a projectile exists: raise `beforeAttack`,
      subscribe to its hits, pay the mana, then spend one ammo. */
  function Commit(x: Attacker, a: Attack, props: ProjectileProperties, p: Projectile): (r: ShotStep)
    requires x.Valid()
    ensures r.attacker.Valid()
    ensures r.attacker == x.(mana := PayMana(x, a.manaCost).mana, ammo := DecreaseAttackAmmo(x.ammo, props))
    ensures r.projectile == Some(p.(attackerOnHit := Listening(p.attackerOnHit)))
    ensures r.events == [BeforeAttack(a.name)] + PayMana(x, a.manaCost).events
    ensures AttackTrace(r.events)
  {
    var paid := PayMana(x, a.manaCost);
    ShotStep(
      x.(mana := paid.mana, ammo := DecreaseAttackAmmo(x.ammo, props)),
      Some(p.(attackerOnHit := Listening(p.attackerOnHit))),
      [BeforeAttack(a.name)] + paid.events)
  }

  /** `DoRangedAttack`: fire a forward projectile when the gate passes;
      creation always succeeds, so the costs are paid exactly then. */
  function DoRangedAttack(x: Attacker, a: Attack, now: real): (r: ShotStep)
    requires x.Valid() && a.kind.Ranged?
    ensures r.attacker.Valid()
    ensures r.projectile.Some? <==> MayFire(x, a, a.kind.projectile)
    ensures r.projectile.None? ==> r == ShotStep(x, None, [])
    ensures r.projectile.Some? ==>
      && r.attacker == x.(mana := PayMana(x, a.manaCost).mana, ammo := DecreaseAttackAmmo(x.ammo, a.kind.projectile))
      && r.projectile.value.guidance.Forward?
      && !r.projectile.value.wasHit
      && r.projectile.value.attackerOnHit == Some(Executor(a, x.self.id, now, None, true))
      && |r.events| > 0 && r.events[0] == BeforeAttack(a.name)
    ensures AttackTrace(r.events)
  {
    var props := a.kind.projectile;
    if MayFire(x, a, props) then Commit(x, a, props, CreateForward(a, x.self.id, now))
    else ShotStep(x, None, [])
  }

  /** `DoTargetedAttack`: fire a homing projectile when the gate passes and
      the target can be targeted; the costs are paid only when the projectile
      was created. `distance` is the target's distance from the attacker. */
  function DoTargetedAttack(x: Attacker, a: Attack, target: Option<Entity>, distance: real, now: real): (r: ShotStep)
    requires x.Valid() && a.kind.Targeted?
    ensures r.attacker.Valid()
    ensures r.projectile.Some? <==>
      MayFire(x, a, a.kind.projectile) && target.Some? && !OutOfReach(a.kind.targetMaximumDistance, distance)
    ensures r.projectile.None? ==> r == ShotStep(x, None, [])
    ensures r.projectile.Some? ==>
      && r.attacker == x.(mana := PayMana(x, a.manaCost).mana, ammo := DecreaseAttackAmmo(x.ammo, a.kind.projectile))
      && r.projectile.value.guidance == TowardTarget(target.value.id)
      && r.projectile.value.attackerOnHit == Some(Executor(a, x.self.id, now, None, true))
      && |r.events| > 0 && r.events[0] == BeforeAttack(a.name)
    ensures AttackTrace(r.events)
  {
    var props := a.kind.projectile;
    if MayFire(x, a, props) then
      var created := CreateTargeted(target, Some(a), Some(x.self.id), distance, a.kind.targetMaximumDistance, now);
      if created.Some? then Commit(x, a, props, created.value) else ShotStep(x, None, [])
    else ShotStep(x, None, [])
  }

  // ---------------------------------------------------------------------------
  // Collisions, mana and lookup
  // ---------------------------------------------------------------------------

  /** The outcome of a collision with the attacker's body. */
  datatype CollisionStep = CollisionStep(attacker: Attacker, target: Option<Entity>, events: seq<Event>)

  /** `OnCollisionEnter`: offer the collision to the pending hit window, if
      any, then drop the window, whether or not it hit. */
  function OnCollisionEnter(x: Attacker, c: Collider, now: real, d: DamageDraws): (r: CollisionStep)
    requires ValidCollider(c)
    requires x.closeExecutor.Some? ==> ValidDraws(x.closeExecutor.value.attack, d)
    ensures r.attacker == x.(closeExecutor := None)
    ensures x.closeExecutor.None? ==> r.target.None? && r.events == []
    ensures x.closeExecutor.Some? ==>
      var hit := CloseDamageCollider(x.closeExecutor.value, c, now, d);
      r.target == hit.target && r.events == hit.events
    ensures r.target.Some? <==> HasCloseAttackPending(x, now) && Eligible(x.closeExecutor.value, c)
  {
    match x.closeExecutor
    case None => CollisionStep(x, None, [])
    case Some(window) =>
      var hit := CloseDamageCollider(window, c, now, d);
      CollisionStep(x.(closeExecutor := None), hit.target, hit.events)
  }

  /** `RestoreMana(n)`: increase the mana pool, if any. */
  function RestoreMana(x: Attacker, n: Int32): (r: AttackerStep)
    requires x.Valid()
    ensures r.attacker.Valid() && r.succeeded
    ensures r.attacker == x.(mana := r.attacker.mana)
    ensures x.mana.None? ==> r.attacker == x && r.events == []
    ensures x.mana.Some? ==> r.attacker.mana == Some(Increase(x.mana.value, n).pool)
    ensures x.mana.Some? && x.mana.value.maximum > 0 && 0 <= x.mana.value.current + n <= x.mana.value.maximum ==>
      r.attacker.mana.value.current == x.mana.value.current + n
    ensures x.mana.Some? ==> r.events == FromPool(ManaOf(x.self.id), Increase(x.mana.value, n).events)
  {
    match x.mana
    case None => AttackerStep(x, true, [])
    case Some(pool) =>
      var step := Increase(pool, n);
      AttackerStep(x.(mana := Some(step.pool)), true, FromPool(ManaOf(x.self.id), step.events))
  }

  /** `RestoreManaFully`: refill the mana pool, if any, to its maximum. */
  function RestoreManaFully(x: Attacker): (r: AttackerStep)
    requires x.Valid()
    ensures r.attacker.Valid() && r.succeeded
    ensures r.attacker == x.(mana := r.attacker.mana)
    ensures x.mana.None? ==> r.attacker == x && r.events == []
    ensures x.mana.Some? ==> r.attacker.mana.Some? && r.attacker.mana.value.IsFull()
                             && r.attacker.mana.value.maximum == x.mana.value.maximum
    ensures x.mana.Some? ==> r.attacker.mana == Some(RestoreFully(x.mana.value).pool)
    ensures x.mana.Some? ==> r.events == FromPool(ManaOf(x.self.id), RestoreFully(x.mana.value).events)
    ensures x.mana.Some? ==> (r.events == [] <==> x.mana.value.IsFull())
  {
    match x.mana
    case None => AttackerStep(x, true, [])
    case Some(pool) =>
      var step := RestoreFully(pool);
      AttackerStep(x.(mana := Some(step.pool)), true, FromPool(ManaOf(x.self.id), step.events))
  }

  /** `GetAllAttacks`: melee, then ranged, then targeted attacks, in list order. */
  function AllAttacks(x: Attacker): (r: seq<Attack>)
    ensures |r| == |x.closeSet.attacks| + |x.rangedSet.attacks| + |x.targetedSet.attacks|
    ensures forall a :: a in r <==> a in x.closeSet.attacks || a in x.rangedSet.attacks || a in x.targetedSet.attacks
  {
    x.closeSet.attacks + x.rangedSet.attacks + x.targetedSet.attacks
  }

  /** The first attack of a concatenation with a given name comes from the
      first part when that part has one. */
  lemma {:induction false} FirstByNameAppend(s: seq<Attack>, t: seq<Attack>, name: string)
    ensures FirstByName(s + t, name) == if FirstByName(s, name).Some? then FirstByName(s, name) else FirstByName(t, name)
  {
    if |s| == 0 {
      assert s + t == t;
    } else {
      assert (s + t)[0] == s[0];
      assert (s + t)[1..] == s[1..] + t;
      FirstByNameAppend(s[1..], t, name);
    }
  }

  /** `GetAttack(name)` of the attacker: the first attack with that name
      across all three sets, melee first, then ranged, then targeted. */
  function GetAttack(x: Attacker, name: string): (r: Option<Attack>)
    ensures r.Some? ==> r.value.name == name
    ensures r.None? <==> name !in Names(x.closeSet.attacks) && name !in Names(x.rangedSet.attacks) && name !in Names(x.targetedSet.attacks)
    ensures name in Names(x.closeSet.attacks) ==> r == FirstByName(x.closeSet.attacks, name)
    ensures name !in Names(x.closeSet.attacks) && name in Names(x.rangedSet.attacks) ==> r == FirstByName(x.rangedSet.attacks, name)
    ensures name !in Names(x.closeSet.attacks) && name !in Names(x.rangedSet.attacks) ==> r == FirstByName(x.targetedSet.attacks, name)
  {
    var close := x.closeSet.attacks;
    var ranged := x.rangedSet.attacks;
    var targeted := x.targetedSet.attacks;
    FirstByNameAppend(close + ranged, targeted, name);
    FirstByNameAppend(close, ranged, name);
    NamesAndScan(close, name);
    NamesAndScan(ranged, name);
    NamesAndScan(targeted, name);
    FirstByName(AllAttacks(x), name)
  }

  /** The scan finds a name exactly when the list carries it. */
  lemma NamesAndScan(s: seq<Attack>, name: string)
    ensures FirstByName(s, name).None? <==> name !in Names(s)
    ensures FirstByName(s, name).Some? ==> FirstByName(s, name).value.name == name
  {
    if name in Names(s) {
      var i :| 0 <= i < |s| && s[i].name == name;
    }
  }

  // ---------------------------------------------------------------------------
  // Properties
  // ---------------------------------------------------------------------------

  /** With a non-negative cost, `CanAttack` is exactly: an attack, a living
      attacker, and no more cost than the mana available. */
  lemma CanAttackIffAffordable(x: Attacker, a: Attack)
    requires x.Valid() && a.manaCost >= 0
    ensures CanAttack(x, Some(a)) <==> IsAlive(x.self) && (x.mana.None? || a.manaCost <= x.mana.value.current)
  {
  }

  /** The shots a limited kind allows from a fresh ledger: `k` consumptions. */
  function FireTimes(ammo: AmmoLedger, props: ProjectileProperties, k: nat): AmmoLedger
  {
    if k == 0 then ammo else DecreaseAttackAmmo(FireTimes(ammo, props, k - 1), props)
  }

  /** From a fresh ledger, a kind with maximum `n` reads `n - k` after `k <= n`
      shots, still has ammo while `k < n`, and is refused once `k == n`. */
  lemma {:induction false} AmmoCountsDown(props: ProjectileProperties, k: nat)
    requires props.maxAmmo.Limited? && 1 <= k <= props.maxAmmo.cap
    ensures props.id in FireTimes(map[], props, k)
    ensures FireTimes(map[], props, k)[props.id] == props.maxAmmo.cap - k
    ensures HaveEnoughAmmo(FireTimes(map[], props, k), props) <==> k < props.maxAmmo.cap
  {
    if k > 1 {
      AmmoCountsDown(props, k - 1);
    }
  }

  /** An exhausted kind stays at 0 however often it is consumed. */
  lemma {:induction false} ExhaustedStaysEmpty(props: ProjectileProperties, k: nat)
    requires props.maxAmmo.Limited? && 1 <= props.maxAmmo.cap <= k
    ensures props.id in FireTimes(map[], props, k) && FireTimes(map[], props, k)[props.id] == 0
    ensures !HaveEnoughAmmo(FireTimes(map[], props, k), props)
  {
    if k == props.maxAmmo.cap {
      AmmoCountsDown(props, k);
    } else {
      ExhaustedStaysEmpty(props, k - 1);
    }
  }

  /** A ranged attack with a maximum of 3 fires three times, reading 2, 1 and
      0, and the fourth attempt is refused and leaves the ammo at 0. */
  lemma ThreeShotsThenRefused(x: Attacker, a: Attack, now: real)
    requires x.Valid() && a.kind.Ranged? && a.kind.projectile.prefab.Some?
    requires a.kind.projectile.maxAmmo == Limited(3) && a.kind.projectile.id !in x.ammo
    requires IsAlive(x.self) && a.manaCost == 0
    ensures var s1 := DoRangedAttack(x, a, now);
            var s2 := DoRangedAttack(s1.attacker, a, now);
            var s3 := DoRangedAttack(s2.attacker, a, now);
            var s4 := DoRangedAttack(s3.attacker, a, now);
            && s1.projectile.Some? && GetAmmoCount(s1.attacker.ammo, a) == Some(2)
            && s2.projectile.Some? && GetAmmoCount(s2.attacker.ammo, a) == Some(1)
            && s3.projectile.Some? && GetAmmoCount(s3.attacker.ammo, a) == Some(0)
            && s4.projectile.None? && GetAmmoCount(s4.attacker.ammo, a) == Some(0)
  {
    var s1 := DoRangedAttack(x, a, now);
    assert s1.attacker.self == x.self;
    var s2 := DoRangedAttack(s1.attacker, a, now);
    var s3 := DoRangedAttack(s2.attacker, a, now);
  }

  /** After a full refill every projectile attack reads its configured
      maximum, and a second refill reports nothing to do. */
  lemma RefillAllRestoresMaximum(ammo: AmmoLedger, a: Attack)
    requires !a.kind.Close?
    ensures GetAmmoCount(RefillAllAmmos(ammo).ammo, a) == CapReading(ProjectileOf(a).value.maxAmmo)
    ensures !RefillAllAmmos(RefillAllAmmos(ammo).ammo).refilled
  {
  }

  /** A refill of count 0 after any number of shots restores the maximum. */
  lemma RefillZeroRestoresMaximum(props: ProjectileProperties, a: Attack, k: nat)
    requires props.maxAmmo.Limited? && 1 <= k && 1 <= props.maxAmmo.cap
    requires a.kind == Ranged(props)
    ensures var r := RefillAmmo(FireTimes(map[], props, k), 0, a);
            r.refilled && GetAmmoCount(r.ammo, a) == Some(props.maxAmmo.cap)
  {
    if k <= props.maxAmmo.cap {
      AmmoCountsDown(props, k);
    } else {
      ExhaustedStaysEmpty(props, k);
    }
  }

  /** The first collision consumes the hit window: a second collision does
      nothing and no melee attack is pending afterwards. */
  lemma WindowConsumedByFirstCollision(x: Attacker, c1: Collider, c2: Collider, now: real, later: real, d: DamageDraws)
    requires ValidCollider(c1) && ValidCollider(c2)
    requires x.closeExecutor.Some? ==> ValidDraws(x.closeExecutor.value.attack, d)
    ensures var after := OnCollisionEnter(x, c1, now, d).attacker;
            && !HasCloseAttackPending(after, later)
            && OnCollisionEnter(after, c2, later, d).target.None?
            && OnCollisionEnter(after, c2, later, d).events == []
  {
  }

  /** Mana spent on a melee attack comes back with a restore of the same amount. */
  lemma SpentManaIsRestored(x: Attacker, a: Attack, now: real)
    requires x.Valid() && a.kind.Close? && a.manaCost >= 0
    requires x.mana.Some? && x.mana.value.maximum > 0
    requires DoCloseAttack(x, Some(a), now).succeeded
    ensures RestoreMana(DoCloseAttack(x, Some(a), now).attacker, a.manaCost).attacker.mana.value.current == x.mana.value.current
  {
  }

  /** An attacker with 10 mana performs a melee attack costing 5 and dealing
      exactly 5 on an untagged entity with 20 life: one collision inside the
      hit window leaves the entity at 15 and the attacker at 5 mana. */
  lemma MeleeExample(x: Attacker, a: Attack, c: Collider, now: real, later: real, d: DamageDraws)
    requires x.Valid() && a.kind.Close? && IsAlive(x.self)
    requires x.mana.Some? && x.mana.value.current == 10 && a.manaCost == 5
    requires a.damage == DamageRange(5, 5) && a.attackTags.None? && a.critical.probability < d.chance && ValidDraws(a, d)
    requires ValidCollider(c) && c.onSelf.Some? && c.onSelf.value.id != x.self.id
    requires c.onSelf.value.life.Some? && c.onSelf.value.life.value.current == 20
    requires now <= later < now + MinimumHitTime
    ensures var s := DoCloseAttack(x, Some(a), now);
            var h := OnCollisionEnter(s.attacker, c, later, d);
            && s.succeeded
            && s.attacker.mana.value.current == 5
            && h.target.Some? && h.target.value.life.value.current == 15
            && h.attacker.closeExecutor.None?
  {
    var s := DoCloseAttack(x, Some(a), now);
    var window := s.attacker.closeExecutor.value;
    assert !TimeToLivePassed(window, later);
    assert Eligible(window, c);
  }
}

=== FILE: attacks_set.dfy ===
/**
 An ordered set of attacks of one kind, with the name index that
 `InitializeAttacks` builds. Lookup by name goes through the index when it is
 built and falls back to a linear scan otherwise; lookup by position clamps
 the position into the list.
 */
module AttackSets {
  import opened Numerics
  import opened Options
  import opened Attacks

  datatype AttacksSet = AttacksSet(attacks: seq<Attack>, byName: Option<map<string, Attack>>)

  /** Position `k` holds the first attack of the list carrying its name. */
  predicate IsFirstNamed(attacks: seq<Attack>, k: int)
  {
    0 <= k < |attacks| && forall j :: 0 <= j < k ==> attacks[j].name != attacks[k].name
  }

  /** The reference lookup: a linear scan for the first attack named `name`
      (`FirstOrDefault`). */
  function FirstByName(attacks: seq<Attack>, name: string): (r: Option<Attack>)
    ensures r.None? <==> forall i :: 0 <= i < |attacks| ==> attacks[i].name != name
    ensures r.Some? ==> exists k :: IsFirstNamed(attacks, k) && attacks[k].name == name && r.value == attacks[k]
  {
    if |attacks| == 0 then None
    else if attacks[0].name == name then
      assert IsFirstNamed(attacks, 0);
      Some(attacks[0])
    else
      var rest := FirstByName(attacks[1..], name);
      assert forall i :: 1 <= i < |attacks| ==> attacks[i] == attacks[1..][i - 1];
      if rest.Some? then
        var k :| IsFirstNamed(attacks[1..], k) && attacks[1..][k].name == name && rest.value == attacks[1..][k];
        assert IsFirstNamed(attacks, k + 1);
        rest
      else rest
  }

  /** The names occurring in a list of attacks. */
  function Names(attacks: seq<Attack>): set<string>
  {
    set i | 0 <= i < |attacks| :: attacks[i].name
  }

  /** The name index `GroupBy(name).ToDictionary(First)` builds: every name of
      the list, mapped to the first attack carrying it. */
  function BuildIndex(attacks: seq<Attack>): (m: map<string, Attack>)
    ensures m.Keys == Names(attacks)
    ensures forall n :: n in m ==>
      exists k :: IsFirstNamed(attacks, k) && attacks[k].name == n && m[n] == attacks[k]
  {
    if |attacks| == 0 then map[]
    else
      var tail := attacks[1..];
      var rest := BuildIndex(tail);
      var m := rest[attacks[0].name := attacks[0]];
      assert forall i :: 1 <= i < |attacks| ==> attacks[i] == tail[i - 1];
      assert Names(attacks) == Names(tail) + {attacks[0].name} by {
        forall n | n in Names(attacks) ensures n in Names(tail) + {attacks[0].name} {
          var i :| 0 <= i < |attacks| && attacks[i].name == n;
          if i > 0 { assert tail[i - 1].name == n; }
        }
      }
      assert IsFirstNamed(attacks, 0);
      forall n | n in m && n != attacks[0].name
        ensures exists k :: IsFirstNamed(attacks, k) && attacks[k].name == n && m[n] == attacks[k]
      {
        var k :| IsFirstNamed(tail, k) && tail[k].name == n && rest[n] == tail[k];
        assert IsFirstNamed(attacks, k + 1);
      }
      m
  }

  /** `InitializeAttacks`: build the name index from the current list. */
  function InitializeAttacks(s: AttacksSet): (r: AttacksSet)
    ensures r.attacks == s.attacks
    ensures r.byName.Some? && r.byName.value.Keys == Names(s.attacks)
    ensures forall n :: n in r.byName.value ==> Some(r.byName.value[n]) == FirstByName(s.attacks, n)
  {
    var m := BuildIndex(s.attacks);
    forall n | n in m ensures Some(m[n]) == FirstByName(s.attacks, n) {
      var k :| IsFirstNamed(s.attacks, k) && s.attacks[k].name == n && m[n] == s.attacks[k];
      var found := FirstByName(s.attacks, n);
      var k' :| IsFirstNamed(s.attacks, k') && s.attacks[k'].name == n && found.value == s.attacks[k'];
      assert k == k';
    }
    s.(byName := Some(m))
  }

  /** `GetRandomAttack`: none for an empty list, otherwise the attack at the
      supplied uniform draw from `[0, Count)`. */
  function GetRandomAttack(s: AttacksSet, draw: int): (r: Option<Attack>)
    requires |s.attacks| > 0 ==> 0 <= draw < |s.attacks|
    ensures r.None? <==> |s.attacks| == 0
    ensures r.Some? ==> r.value in s.attacks
  {
    if |s.attacks| == 0 then None else Some(s.attacks[draw])
  }

  /** `GetAttack(name)`: the index when it is built and knows the name,
      otherwise a linear scan. */
  function GetAttackByName(s: AttacksSet, name: string): (r: Option<Attack>)
    ensures s.byName.None? ==> r == FirstByName(s.attacks, name)
    ensures s.byName.Some? && name in s.byName.value ==> r == Some(s.byName.value[name])
    ensures s.byName.Some? && name !in s.byName.value ==> r == FirstByName(s.attacks, name)
  {
    match s.byName
    case None => FirstByName(s.attacks, name)
    case Some(index) =>
      if name in index then Some(index[name]) else FirstByName(s.attacks, name)
  }

  /** `GetAttack(index)`: clamp the position into `[0, Count - 1]`. `None`
      is the out-of-range exception the source throws on an empty list. */
  function GetAttackAt(s: AttacksSet, index: Int32): (r: Option<Attack>)
    ensures r.None? <==> |s.attacks| == 0
    ensures 0 <= index < |s.attacks| ==> r == Some(s.attacks[index])
    ensures |s.attacks| > 0 && index < 0 ==> r == Some(s.attacks[0])
    ensures |s.attacks| > 0 && index >= |s.attacks| ==> r == Some(s.attacks[|s.attacks| - 1])
  {
    var valid := Clamp(index, 0, |s.attacks| - 1);
    if 0 <= valid < |s.attacks| then Some(s.attacks[valid]) else None
  }

  // ---------------------------------------------------------------------------
  // Properties
  // ---------------------------------------------------------------------------

  /** With an index built from the current list, lookup by name agrees with
      the linear scan for every name, duplicates resolving to the first. */
  lemma IndexedLookupMatchesScan(s: AttacksSet, name: string)
    ensures GetAttackByName(InitializeAttacks(s), name) == FirstByName(s.attacks, name)
  {
  }

  /** Lookup by name finds nothing exactly when no attack has that name,
      whether or not the index was built from the current list. */
  lemma LookupMissesOnlyUnknownNames(s: AttacksSet, name: string)
    requires s.byName.None? || s.byName == Some(BuildIndex(s.attacks))
    ensures GetAttackByName(s, name).None? <==> name !in Names(s.attacks)
  {
    if s.byName.Some? {
      assert s.byName.value.Keys == Names(s.attacks);
    }
    if name in Names(s.attacks) {
      var i :| 0 <= i < |s.attacks| && s.attacks[i].name == name;
    }
  }

  /** An index left over from an older list can return an attack that is no
      longer in the list, which is why it must be rebuilt after a change. */
  lemma StaleIndexCanReturnRemovedAttack(a: Attack)
    ensures var stale := InitializeAttacks(AttacksSet([a], None)).(attacks := []);
            GetAttackByName(stale, a.name) == Some(a) && a !in stale.attacks
  {
    var stale := InitializeAttacks(AttacksSet([a], None)).(attacks := []);
    assert a.name in Names([a]);
  }
}

=== FILE: bar_stats.dfy ===
/**
 The observable resource pool (health, mana): a clamped integer with change
 notifications, idle-time tracking, below-threshold actions and a rescalable
 maximum. Every operation is a pure transition returning the new pool and the
 notifications it raised, in order.
 */
module BarStats {
  import opened Numerics
  import opened Events
  import opened Options

  /** `float.MaxValue`, the upper clamp of the idle-time accumulator. */
  const FloatMaxValue: real := 340282346638528859811704183484516925440.0

  /** An action to run when the requested value, as a fraction of the
      maximum, is at most `value`. */
  datatype BelowValueTrigger = BelowValueTrigger(value: real, action: ActionId)

  datatype Pool = Pool(
    current: Int32,
    maximum: Int32,
    idleTime: real,
    lastFrameMaximum: int,
    lastFrameCurrent: int,
    lastCurrentRaised: int,
    lastMaximumRaised: int,
    triggers: seq<BelowValueTrigger>)
  {
    /** What every operation preserves once the pool is awake. */
    predicate Valid()
    {
      0 <= current <= maximum && idleTime >= 0.0
    }

    predicate IsFull()
    {
      maximum == current
    }
  }

  /** A pool after an operation, with the notifications the operation raised. */
  datatype PoolStep = PoolStep(pool: Pool, events: seq<PoolEvent>)

  /** The fraction `(float)newValue / maximumValue` the triggers compare with. */
  function Ratio(requested: int, maximum: int): real
    requires maximum != 0
  {
    requested as real / maximum as real
  }

  /** The actions of the triggers whose threshold is at least `ratio`, in list order. */
  function FiredActions(triggers: seq<BelowValueTrigger>, ratio: real): (r: seq<ActionId>)
    ensures |r| <= |triggers|
    ensures forall a :: a in r <==>
      exists k :: 0 <= k < |triggers| && triggers[k].action == a && ratio <= triggers[k].value
  {
    if |triggers| == 0 then []
    else
      var rest := FiredActions(triggers[1..], ratio);
      assert forall k :: 1 <= k < |triggers| ==> triggers[k] == triggers[1..][k - 1];
      if ratio <= triggers[0].value then [triggers[0].action] + rest else rest
  }

  /** A single trigger fires its action exactly when its threshold is at least the ratio. */
  lemma FiredActionsSingle(t: BelowValueTrigger, ratio: real)
    ensures FiredActions([t], ratio) == if ratio <= t.value then [t.action] else []
  {
    assert [t][1..] == [];
  }

  /** The triggers of a concatenated list fire those of the first part,
      then those of the second: one firing per matching trigger, in list order. */
  lemma {:induction false} FiredActionsAppend(t1: seq<BelowValueTrigger>, t2: seq<BelowValueTrigger>, ratio: real)
    ensures FiredActions(t1 + t2, ratio) == FiredActions(t1, ratio) + FiredActions(t2, ratio)
  {
    if |t1| > 0 {
      assert (t1 + t2)[1..] == t1[1..] + t2;
      FiredActionsAppend(t1[1..], t2, ratio);
    } else {
      assert t1 + t2 == t2;
    }
  }

  function AsBelowValueEvents(actions: seq<ActionId>): (r: seq<PoolEvent>)
    ensures |r| == |actions|
    ensures forall i :: 0 <= i < |r| ==> r[i] == BelowValueAction(actions[i])
    ensures forall a :: BelowValueAction(a) in r <==> a in actions
  {
    var r := seq(|actions|, i requires 0 <= i < |actions| => BelowValueAction(actions[i]));
    assert forall i :: 0 <= i < |actions| ==> r[i] == BelowValueAction(actions[i]) && r[i] in r;
    r
  }

  /** `Awake`: the maximum becomes its absolute value and the pool starts full. */
  function Awake(configuredMaximum: Int32, triggers: seq<BelowValueTrigger>): (p: Pool)
    requires configuredMaximum != MinInt32  // Mathf.Abs(int.MinValue) throws
    ensures p.Valid() && p.IsFull()
    ensures p.maximum >= 0 && (p.maximum == configuredMaximum || p.maximum == -configuredMaximum)
    ensures p.idleTime == 0.0
    ensures p.lastFrameCurrent == p.lastCurrentRaised == p.current
    ensures p.lastFrameMaximum == p.lastMaximumRaised == p.maximum
  {
    var m := if configuredMaximum < 0 then -configuredMaximum else configuredMaximum;
    Pool(m, m, 0.0, m, m, m, m, triggers)
  }

  function ResetIdleTime(p: Pool): (r: Pool)
    ensures r.idleTime == 0.0
    ensures r == p.(idleTime := r.idleTime)
    ensures p.Valid() ==> r.Valid()
  {
    p.(idleTime := 0.0)
  }

  /** `SetCurrentValue`: clamp the request into `[0, maximum]`. The change
      branch is taken when the UNCLAMPED request differs from the current
      value; it notifies `(old, clamped)`, resets the idle time, and fires
      every trigger whose threshold is at least the unclamped ratio. */
  function SetCurrentValue(p: Pool, newValue: Int32): (r: PoolStep)
    requires p.Valid()
    ensures r.pool.Valid()
    // a pool with maximum 0 refuses every request
    ensures p.maximum == 0 ==> r == PoolStep(p, [])
    // an unchanged request is a no-op
    ensures newValue == p.current ==> r == PoolStep(p, [])
    ensures p.maximum != 0 && newValue != p.current ==>
      && (0 <= newValue <= p.maximum ==> r.pool.current == newValue)
      && (newValue < 0 ==> r.pool.current == 0)
      && (newValue > p.maximum ==> r.pool.current == p.maximum)
      && r.pool == p.(current := r.pool.current, idleTime := 0.0, lastCurrentRaised := r.pool.current)
      && |r.events| >= 1
      && r.events[0] == CurrentValueChanged(p.current, r.pool.current)
      && (forall i :: 1 <= i < |r.events| ==> r.events[i].BelowValueAction?)
      && (forall a :: BelowValueAction(a) in r.events[1..] <==>
            exists k :: 0 <= k < |p.triggers| && p.triggers[k].action == a
                        && Ratio(newValue, p.maximum) <= p.triggers[k].value)
      // one action per matching trigger, in list order
      && r.events[1..] == AsBelowValueEvents(FiredActions(p.triggers, Ratio(newValue, p.maximum)))
  {
    if p.maximum == 0 then PoolStep(p, [])
    else if p.current != newValue then
      var clamped := Clamp(newValue, 0, p.maximum);
      var fired := FiredActions(p.triggers, Ratio(newValue, p.maximum));
      var events := [CurrentValueChanged(p.current, clamped)] + AsBelowValueEvents(fired);
      assert events[1..] == AsBelowValueEvents(fired);
      PoolStep(p.(current := clamped, idleTime := 0.0, lastCurrentRaised := clamped), events)
    else PoolStep(p, [])
  }

  /** `RestoreFully`: request the maximum. */
  function RestoreFully(p: Pool): (r: PoolStep)
    requires p.Valid()
    ensures r.pool.Valid() && r.pool.IsFull()
    ensures p.IsFull() <==> r.events == []
    ensures r.pool.maximum == p.maximum
  {
    SetCurrentValue(p, p.maximum)
  }

  /** `Decrease(n)`: request `current - n` (unchecked 32-bit subtraction). */
  function Decrease(p: Pool, n: Int32): (r: PoolStep)
    requires p.Valid()
    ensures r.pool.Valid()
    ensures r.pool.maximum == p.maximum
    ensures p.maximum > 0 && 0 <= p.current - n <= p.maximum ==> r.pool.current == p.current - n
    ensures p.maximum > 0 && MinInt32 <= p.current - n < 0 ==> r.pool.current == 0
    ensures p.maximum > 0 && p.maximum < p.current - n <= MaxInt32 ==> r.pool.current == p.maximum
    ensures n == 0 ==> r == PoolStep(p, [])
    ensures r == SetCurrentValue(p, Wrap(p.current - n))
    ensures p.maximum != 0 && n != 0 ==>
      && r.events[0] == CurrentValueChanged(p.current, r.pool.current)
      && r.pool.idleTime == 0.0 && r.pool.lastCurrentRaised == r.pool.current
  {
    SetCurrentValue(p, Wrap(p.current - n))
  }

  /** `Increase(n)`: request `current + n` (unchecked 32-bit addition). */
  function Increase(p: Pool, n: Int32): (r: PoolStep)
    requires p.Valid()
    ensures r.pool.Valid()
    ensures r.pool.maximum == p.maximum
    ensures p.maximum > 0 && 0 <= p.current + n <= p.maximum ==> r.pool.current == p.current + n
    ensures p.maximum > 0 && p.maximum < p.current + n <= MaxInt32 ==> r.pool.current == p.maximum
    ensures p.maximum > 0 && p.current + n < 0 ==> r.pool.current == 0
    ensures n == 0 ==> r == PoolStep(p, [])
    ensures r == SetCurrentValue(p, Wrap(p.current + n))
    ensures p.maximum != 0 && n != 0 ==>
      && r.events[0] == CurrentValueChanged(p.current, r.pool.current)
      && r.pool.idleTime == 0.0 && r.pool.lastCurrentRaised == r.pool.current
  {
    SetCurrentValue(p, Wrap(p.current + n))
  }

  /** `SetMaximumValue(v)`, as written: a non-positive `v` is rejected; the
      rescale runs only when the CURRENT value differs from `v`, divides the
      current value by the old maximum before multiplying (so a pool that is
      not full drops to 0 and a full pool becomes `v`), and the notification
      carries the new current value in place of the new maximum. `None` is the
      division by zero the source throws on a pool whose maximum is 0. */
  function SetMaximumValue(p: Pool, v: Int32): (r: Option<PoolStep>)
    requires p.Valid()
    ensures v <= 0 ==> r == Some(PoolStep(p, []))
    ensures v > 0 && p.current == v ==> r == Some(PoolStep(p, []))
    ensures v > 0 && p.current != v && p.maximum == 0 ==> r.None?
    ensures v > 0 && p.current != v && p.maximum > 0 ==>
      && r.Some?
      && r.value.pool.Valid()
      && r.value.pool.maximum == v
      && (p.IsFull() ==> r.value.pool.IsFull())
      && (!p.IsFull() ==> r.value.pool.current == 0)
      && r.value.pool == p.(current := r.value.pool.current, maximum := v, lastMaximumRaised := v)
      && r.value.events == [MaximumValueChanged(p.maximum, r.value.pool.current)]
  {
    if v <= 0 then Some(PoolStep(p, []))
    else if p.current != v then
      if p.maximum == 0 then None
      else
        var quotient := p.current / p.maximum;
        assert p.current < p.maximum ==> quotient == 0;
        assert p.current == p.maximum ==> quotient == 1;
        var rescaled := Wrap(quotient * v);
        Some(PoolStep(
          p.(current := rescaled, maximum := v, lastMaximumRaised := v),
          [MaximumValueChanged(p.maximum, rescaled)]))
    else Some(PoolStep(p, []))
  }

  /** `UpdateStatsFrame(dt)`: accumulate idle time (clamped to
      `[0, float.MaxValue]`), re-raise a current-value change that no
      notification has reported yet, likewise for the maximum, then remember
      this frame's values. */
  function UpdateStatsFrame(p: Pool, dt: real): (r: PoolStep)
    requires p.Valid()
    ensures r.pool.Valid()
    ensures r.pool.current == p.current && r.pool.maximum == p.maximum
    ensures r.pool.lastFrameCurrent == p.current && r.pool.lastFrameMaximum == p.maximum
    ensures r.pool.lastCurrentRaised == p.lastCurrentRaised
    ensures r.pool.lastMaximumRaised == p.lastMaximumRaised
    ensures CurrentValueChanged(p.lastFrameCurrent, p.current) in r.events <==>
      p.lastFrameCurrent != p.current && p.lastCurrentRaised != p.current
    ensures MaximumValueChanged(p.lastFrameMaximum, p.maximum) in r.events <==>
      p.lastFrameMaximum != p.maximum && p.lastMaximumRaised != p.maximum
    ensures |r.events| <= 2 && forall e :: e in r.events ==> !e.BelowValueAction?
    // the current value is reported before the maximum
    ensures |r.events| == 2 ==> r.events[0].CurrentValueChanged? && r.events[1].MaximumValueChanged?
    ensures CurrentValueChanged(p.lastFrameCurrent, p.current) in r.events ==> r.pool.idleTime == 0.0
    ensures CurrentValueChanged(p.lastFrameCurrent, p.current) !in r.events && 0.0 <= p.idleTime + dt <= FloatMaxValue
      ==> r.pool.idleTime == p.idleTime + dt
  {
    var summed := p.idleTime + dt;
    var idle := if summed < 0.0 then 0.0 else if summed > FloatMaxValue then FloatMaxValue else summed;
    var reraiseCurrent := p.lastFrameCurrent != p.current && p.lastCurrentRaised != p.current;
    var reraiseMaximum := p.lastFrameMaximum != p.maximum && p.lastMaximumRaised != p.maximum;
    var currentEvents := if reraiseCurrent then [CurrentValueChanged(p.lastFrameCurrent, p.current)] else [];
    var maximumEvents := if reraiseMaximum then [MaximumValueChanged(p.lastFrameMaximum, p.maximum)] else [];
    PoolStep(
      p.(idleTime := if reraiseCurrent then 0.0 else idle,
         lastFrameMaximum := p.maximum, lastFrameCurrent := p.current),
      currentEvents + maximumEvents)
  }

  // ---------------------------------------------------------------------------
  // Properties relating several operations
  // ---------------------------------------------------------------------------

  /** A decrease followed by an increase of the same amount restores the value
      when the decrease did not clamp. */
  lemma DecreaseThenIncreaseRestores(p: Pool, n: Int32)
    requires p.Valid() && p.maximum > 0
    requires 0 <= p.current - n <= p.maximum
    ensures Increase(Decrease(p, n).pool, n).pool.current == p.current
  {
    var d := Decrease(p, n).pool;
    assert d.current == p.current - n;
    assert 0 <= d.current + n <= d.maximum;
  }

  /** Decreasing an empty pool by a positive amount still takes the change
      branch: it notifies `(0, 0)` and resets the idle time. */
  lemma DecreaseEmptyStillNotifies(p: Pool, n: Int32)
    requires p.Valid() && p.maximum > 0 && p.current == 0 && n > 0
    ensures Decrease(p, n).pool.current == 0
    ensures Decrease(p, n).pool.idleTime == 0.0
    ensures Decrease(p, n).events[0] == CurrentValueChanged(0, 0)
  {
    assert Wrap(p.current - n) == -n;
  }

  /** A threshold action fires on an increase too: the triggers look at the
      requested ratio, not at the direction of the change. */
  lemma TriggersFireOnIncrease(p: Pool, n: Int32, k: nat)
    requires p.Valid() && p.maximum > 0 && n > 0 && p.current + n <= p.maximum
    requires k < |p.triggers| && Ratio(p.current + n, p.maximum) <= p.triggers[k].value
    ensures BelowValueAction(p.triggers[k].action) in Increase(p, n).events
  {
    var r := Increase(p, n);
    assert Wrap(p.current + n) == p.current + n;
    assert BelowValueAction(p.triggers[k].action) in r.events[1..];
  }

  /** Setting the same value twice: the second request is a no-op. */
  lemma SetCurrentValueIdempotent(p: Pool, v: Int32)
    requires p.Valid() && 0 <= v <= p.maximum
    ensures var once := SetCurrentValue(p, v).pool;
            SetCurrentValue(once, v) == PoolStep(once, [])
  {
  }

  /** A change raised by `SetCurrentValue` is never raised again by the next frame update. */
  lemma NoDuplicateNotificationAfterSet(p: Pool, v: Int32, dt: real)
    requires p.Valid()
    ensures var updated := SetCurrentValue(p, v).pool;
            updated.current != p.current ==>
              forall e :: e in UpdateStatsFrame(updated, dt).events ==> !e.CurrentValueChanged?
  {
    var updated := SetCurrentValue(p, v).pool;
    if updated.current != p.current {
      assert updated.lastCurrentRaised == updated.current;
    }
  }

  /** The rescale of `SetMaximumValue` changes the current value without
      raising a current-value notification; the next frame update raises it,
      and the frame after that raises nothing about the current value. */
  lemma RescaleIsReportedByNextFrame(p: Pool, v: Int32, dt1: real, dt2: real)
    requires p.Valid() && p.maximum > 0 && v > 0 && p.current != v
    requires p.lastFrameCurrent == p.current && p.lastCurrentRaised == p.current
    requires SetMaximumValue(p, v).value.pool.current != p.current
    ensures var q := SetMaximumValue(p, v).value.pool;
            var f1 := UpdateStatsFrame(q, dt1);
            && CurrentValueChanged(p.current, q.current) in f1.events
            && f1.pool.idleTime == 0.0
            && forall e :: e in UpdateStatsFrame(f1.pool, dt2).events ==> !e.CurrentValueChanged?
  {
  }

  /** Frame updates raise each pending change at most once: a second update
      in a row raises nothing. */
  lemma SecondFrameIsQuiet(p: Pool, dt1: real, dt2: real)
    requires p.Valid()
    ensures UpdateStatsFrame(UpdateStatsFrame(p, dt1).pool, dt2).events == []
  {
  }
}

=== FILE: enemy.dfy ===
/**
 The enemy AI: a state machine over whether the enemy is pursuing the player,
 whether it is walking back to where it started, and three timers (time spent
 following, time since the last attack, time since it stopped attacking).
 Each physics step it updates its life bookkeeping, decides whether it lost
 track of the player, and either attacks on a cadence or walks back to its
 start. Distances, line of sight and pose comparisons are inputs; movement
 and rotation are reported as requests.
 */
module Enemies {
  import opened Numerics
  import opened Options
  import opened Events
  import opened BarStats
  import opened Attacks
  import opened AttackSets
  import opened Entities
  import opened Executors
  import opened Projectiles
  import opened Attackers

  datatype EnemyConfig = EnemyConfig(
    minFollowDistance: real,
    secondsBetweenAttacks: real,
    maxFollowDistance: Extended,
    maxFollowTime: Extended,
    backToStartOnStopAttack: bool,
    backToStartDelay: real,
    fightsBack: bool)

  datatype Enemy = Enemy(
    body: Attacker,
    config: EnemyConfig,
    isAttackingTarget: bool,
    secondsSinceStartedFollowing: real,
    secondsSinceLastAttacked: real,
    secondsSinceMoveToStart: real,
    isMovingBackToStart: bool)
  {
    predicate Valid()
    {
      body.Valid()
    }
  }

  /** An enemy after a step: whether it attacked, the projectile it fired
      (if any), and the notifications and movement requests, in order. */
  datatype EnemyStep = EnemyStep(enemy: Enemy, attacked: bool, spawned: Option<Projectile>, events: seq<Event>)

  /** The geometric facts one step needs: the distance to the player and
      whether the hiding layer blocks the line to the player. */
  datatype Sight = Sight(distance: real, lineBlocked: bool)

  /** Pose comparisons for the walk back: at the start position, facing the
      direction of the start position, and at the start rotation. */
  datatype Pose = Pose(atStartPosition: bool, facingStart: bool, atStartRotation: bool)

  /** The random choices of one `AttackMove`: an index into each attack set
      and the ranged-or-targeted coin. */
  datatype Picks = Picks(ranged: int, targeted: int, close: int, coin: int)

  predicate ValidPicks(x: Attacker, p: Picks)
  {
    && (|x.rangedSet.attacks| > 0 ==> 0 <= p.ranged < |x.rangedSet.attacks|)
    && (|x.targetedSet.attacks| > 0 ==> 0 <= p.targeted < |x.targetedSet.attacks|)
    && (|x.closeSet.attacks| > 0 ==> 0 <= p.close < |x.closeSet.attacks|)
    && (p.coin == 0 || p.coin == 1)
  }

  /** `StopAttackingPlayer`: stop pursuing; walk back if pursuing or already
      walking back; restart the walk-back delay. */
  function StopAttackingPlayer(e: Enemy): (r: Enemy)
    ensures !r.isAttackingTarget
    ensures r.isMovingBackToStart <==> e.isMovingBackToStart || e.isAttackingTarget
    ensures r.secondsSinceMoveToStart == 0.0
    ensures r == e.(isAttackingTarget := false, isMovingBackToStart := r.isMovingBackToStart, secondsSinceMoveToStart := 0.0)
  {
    e.(isMovingBackToStart := e.isMovingBackToStart || e.isAttackingTarget,
       secondsSinceMoveToStart := 0.0,
       isAttackingTarget := false)
  }

  /** The handler of the player's `onEntityDied`. */
  function OnPlayerDied(e: Enemy): (r: Enemy)
    ensures r == StopAttackingPlayer(e)
    ensures !r.isAttackingTarget
  {
    StopAttackingPlayer(e)
  }

  /** `AttackPlayer`: start pursuing a living player, with fresh follow and
      attack timers; an enemy already pursuing is unchanged. */
  function AttackPlayer(e: Enemy, player: Option<Entity>): (r: Enemy)
    ensures r.isAttackingTarget <==> e.isAttackingTarget || (player.Some? && IsAlive(player.value))
    ensures !e.isAttackingTarget && player.Some? && IsAlive(player.value) ==>
      r == e.(isAttackingTarget := true, secondsSinceStartedFollowing := 0.0, secondsSinceLastAttacked := 0.0)
    ensures e.isAttackingTarget || player.None? || !IsAlive(player.value) ==> r == e
  {
    if !e.isAttackingTarget && player.Some? && IsAlive(player.value) then
      e.(isAttackingTarget := true, secondsSinceStartedFollowing := 0.0, secondsSinceLastAttacked := 0.0)
    else e
  }

  /** The gate of `AttackIfNeeded`: an attack is given, the time since the
      last attack has reached the configured gap, and no melee window is pending. */
  predicate Ready(e: Enemy, a: Option<Attack>, now: real)
  {
    a.Some? && e.secondsSinceLastAttacked >= e.config.secondsBetweenAttacks && !HasCloseAttackPending(e.body, now)
  }

  /** `AttackIfNeeded(attack)`: when ready, perform the attack its kind calls
      for (a melee attack only when the player is within its range); a success
      restarts the attack timer, and a failed or skipped attempt advances it. */
  function AttackIfNeeded(e: Enemy, a: Option<Attack>, player: Entity, distance: real, now: real, dt: real): (r: EnemyStep)
    requires e.Valid()
    ensures r.enemy.Valid()
    ensures r.attacked ==> Ready(e, a, now)
    ensures r.attacked ==> r.enemy == e.(body := r.enemy.body, secondsSinceLastAttacked := 0.0)
    ensures r.enemy.body == e.body.(mana := r.enemy.body.mana, closeExecutor := r.enemy.body.closeExecutor, ammo := r.enemy.body.ammo)
    ensures r.spawned.Some? ==> r.attacked
    ensures !r.attacked ==> r == EnemyStep(e.(secondsSinceLastAttacked := e.secondsSinceLastAttacked + dt), false, None, [])
    ensures AttackTrace(r.events)
    ensures a.Some? && a.value.kind.Close? && a.value.kind.range < distance ==> !r.attacked
    ensures Ready(e, a, now) && a.value.kind.Close? && a.value.kind.range >= distance ==>
      (r.attacked <==> CanAttack(e.body, a)) && r.spawned.None?
    ensures Ready(e, a, now) && a.value.kind.Ranged? ==>
      (r.attacked <==> MayFire(e.body, a.value, a.value.kind.projectile)) && (r.attacked <==> r.spawned.Some?)
    ensures Ready(e, a, now) && a.value.kind.Targeted? ==>
      (r.attacked <==> MayFire(e.body, a.value, a.value.kind.projectile) && !OutOfReach(a.value.kind.targetMaximumDistance, distance))
      && (r.attacked <==> r.spawned.Some?)
    // a ready attempt is the attacker's own transaction for that kind
    ensures Ready(e, a, now) && a.value.kind.Close? && a.value.kind.range >= distance ==>
      var s := DoCloseAttack(e.body, a, now);
      r.enemy.body == s.attacker && r.events == s.events && r.attacked == s.succeeded
    ensures Ready(e, a, now) && a.value.kind.Ranged? ==>
      var s := DoRangedAttack(e.body, a.value, now);
      r.enemy.body == s.attacker && r.events == s.events && r.spawned == s.projectile
    ensures Ready(e, a, now) && a.value.kind.Targeted? ==>
      var s := DoTargetedAttack(e.body, a.value, Some(player), distance, now);
      r.enemy.body == s.attacker && r.events == s.events && r.spawned == s.projectile
  {
    if Ready(e, a, now) then
      var attack := a.value;
      match attack.kind
      case Targeted(_, _) =>
        var s := DoTargetedAttack(e.body, attack, Some(player), distance, now);
        Outcome(e, s.attacker, s.projectile.Some?, s.projectile, s.events, dt)
      case Ranged(_) =>
        var s := DoRangedAttack(e.body, attack, now);
        Outcome(e, s.attacker, s.projectile.Some?, s.projectile, s.events, dt)
      case Close(_, range) =>
        if range >= distance then
          var s := DoCloseAttack(e.body, a, now);
          Outcome(e, s.attacker, s.succeeded, None, s.events, dt)
        else Outcome(e, e.body, false, None, [], dt)
    else EnemyStep(e.(secondsSinceLastAttacked := e.secondsSinceLastAttacked + dt), false, None, [])
  }

  /** The timer update after an attempt: 0 after a success, advanced otherwise. */
  function Outcome(e: Enemy, body: Attacker, attacked: bool, spawned: Option<Projectile>, events: seq<Event>, dt: real): EnemyStep
  {
    EnemyStep(e.(body := body, secondsSinceLastAttacked := if attacked then 0.0 else e.secondsSinceLastAttacked + dt),
              attacked, spawned, events)
  }

  /** `AttackIfNeeded(ranged, targeted)`: nothing, and no timer change, when
      neither is given; the one given; or the coin's choice between both. */
  function AttackEitherRanged(e: Enemy, ranged: Option<Attack>, targeted: Option<Attack>, coin: int,
                              player: Entity, distance: real, now: real, dt: real): (r: EnemyStep)
    requires e.Valid()
    ensures r.enemy.Valid()
    ensures ranged.None? && targeted.None? ==> r == EnemyStep(e, false, None, [])
    ensures ranged.Some? || targeted.Some? ==>
      r == AttackIfNeeded(e, if ranged.None? then targeted else if targeted.None? || coin == 0 then ranged else targeted,
                          player, distance, now, dt)
  {
    if ranged.None? && targeted.None? then EnemyStep(e, false, None, [])
    else if ranged.None? then AttackIfNeeded(e, targeted, player, distance, now, dt)
    else if targeted.None? then AttackIfNeeded(e, ranged, player, distance, now, dt)
    else if coin == 0 then AttackIfNeeded(e, ranged, player, distance, now, dt)
    else AttackIfNeeded(e, targeted, player, distance, now, dt)
  }

  /** The range of the picked melee attack, `float.MaxValue` when there is none. */
  function CloseRange(close: Option<Attack>): real
  {
    if close.Some? && close.value.kind.Close? then close.value.kind.range else FloatMaxValue
  }

  /** The life and mana pools with their idle time reset. */
  function ResetIdleTimes(x: Attacker): (r: Attacker)
    requires x.Valid()
    ensures r.Valid()
    ensures r == x.(self := r.self, mana := r.mana)
    ensures r.self == x.self.(life := r.self.life)
    ensures r.self.life.Some? <==> x.self.life.Some?
    ensures r.self.life.Some? ==> r.self.life.value == ResetIdleTime(x.self.life.value)
    ensures r.mana.Some? <==> x.mana.Some?
    ensures r.mana.Some? ==> r.mana.value == ResetIdleTime(x.mana.value)
  {
    var life := if x.self.life.Some? then Some(ResetIdleTime(x.self.life.value)) else None;
    var mana := if x.mana.Some? then Some(ResetIdleTime(x.mana.value)) else None;
    x.(self := x.self.(life := life), mana := mana)
  }

  /** Whether the attack choice puts the enemy in the far case: at least as
      far as the smaller of the follow distance and the melee range. */
  predicate IsFar(e: Enemy, close: Option<Attack>, distance: real)
  {
    distance >= MinReal(e.config.minFollowDistance, CloseRange(close))
  }

  /** The far case of `AttackMove`: try ranged or targeted, then melee, and
      walk toward the player when neither attacked. */
  function FarMove(e: Enemy, ranged: Option<Attack>, targeted: Option<Attack>, close: Option<Attack>, coin: int,
                   player: Entity, distance: real, now: real, dt: real): (r: EnemyStep)
    requires e.Valid()
    ensures r.enemy.Valid()
    ensures r.enemy == e.(body := r.enemy.body, secondsSinceLastAttacked := r.enemy.secondsSinceLastAttacked)
    ensures r.enemy.body.self == e.body.self
    ensures r.attacked ==> r.enemy.secondsSinceLastAttacked == 0.0
    ensures r.spawned.Some? ==> r.attacked
    ensures !r.attacked ==> r.enemy.body == e.body && r.spawned.None?
    ensures MoveTowardTarget(player.id) in r.events <==> !r.attacked
    ensures !r.attacked ==> r.events == [MoveTowardTarget(player.id)]
    ensures r.attacked ==>
      e.secondsSinceLastAttacked >= e.config.secondsBetweenAttacks
      || e.secondsSinceLastAttacked + dt >= e.config.secondsBetweenAttacks
    ensures var first := AttackEitherRanged(e, ranged, targeted, coin, player, distance, now, dt);
            && (first.attacked ==> r == first)
            && (!first.attacked ==>
                  var second := AttackIfNeeded(first.enemy, close, player, distance, now, dt);
                  && (r.attacked <==> second.attacked)
                  && (second.attacked ==> r == second))
  {
    var first := AttackEitherRanged(e, ranged, targeted, coin, player, distance, now, dt);
    if first.attacked then first
    else
      var second := AttackIfNeeded(first.enemy, close, player, distance, now, dt);
      if second.attacked then second
      else EnemyStep(second.enemy, false, None, [MoveTowardTarget(player.id)])
  }

  /** `AttackMove`: pick one attack of each kind, reset the idle times, then
      - far: try ranged or targeted, then melee, and walk toward the player
        when neither attacked;
      - near: try melee if there is one, otherwise ranged or targeted. */
  function AttackMove(e: Enemy, player: Entity, distance: real, now: real, dt: real, picks: Picks): (r: EnemyStep)
    requires e.Valid() && ValidPicks(e.body, picks)
    ensures r.enemy.Valid()
    ensures r.enemy == e.(body := r.enemy.body, secondsSinceLastAttacked := r.enemy.secondsSinceLastAttacked)
    ensures r.enemy.body.self == ResetIdleTimes(e.body).self
    ensures r.attacked ==> r.enemy.secondsSinceLastAttacked == 0.0
    ensures r.spawned.Some? ==> r.attacked
    ensures !r.attacked ==> r.enemy.body == ResetIdleTimes(e.body) && r.spawned.None?
    ensures r.attacked ==>
      e.secondsSinceLastAttacked >= e.config.secondsBetweenAttacks
      || e.secondsSinceLastAttacked + dt >= e.config.secondsBetweenAttacks
    ensures var close := GetRandomAttack(e.body.closeSet, picks.close);
            && (MoveTowardTarget(player.id) in r.events <==> IsFar(e, close, distance) && !r.attacked)
            && (!IsFar(e, close, distance) && close.Some? ==> r.spawned.None?)
    ensures var e1 := e.(body := ResetIdleTimes(e.body));
            var ranged := GetRandomAttack(e.body.rangedSet, picks.ranged);
            var targeted := GetRandomAttack(e.body.targetedSet, picks.targeted);
            var close := GetRandomAttack(e.body.closeSet, picks.close);
            && (IsFar(e, close, distance) ==> r == FarMove(e1, ranged, targeted, close, picks.coin, player, distance, now, dt))
            && (!IsFar(e, close, distance) && close.Some? ==> r == AttackIfNeeded(e1, close, player, distance, now, dt))
            && (!IsFar(e, close, distance) && close.None? ==>
                  r == AttackEitherRanged(e1, ranged, targeted, picks.coin, player, distance, now, dt))
  {
    var body := e.body;
    var ranged := GetRandomAttack(body.rangedSet, picks.ranged);
    var targeted := GetRandomAttack(body.targetedSet, picks.targeted);
    var close := GetRandomAttack(body.closeSet, picks.close);
    var e1 := e.(body := ResetIdleTimes(body));
    if IsFar(e, close, distance) then FarMove(e1, ranged, targeted, close, picks.coin, player, distance, now, dt)
    else if close.Some? then
      assert close.value in body.closeSet.attacks;
      AttackIfNeeded(e1, close, player, distance, now, dt)
    else AttackEitherRanged(e1, ranged, targeted, picks.coin, player, distance, now, dt)
  }

  /** The loss conditions of a pursuit: the player is at least the maximum
      follow distance away, the pursuit has lasted at least the maximum follow
      time, or the line to the player is blocked. */
  predicate LostTrack(c: EnemyConfig, sight: Sight, followed: real)
  {
    c.maxFollowDistance.ReachedBy(sight.distance) || c.maxFollowTime.ReachedBy(followed) || sight.lineBlocked
  }

  /** `BackToStart`: while walking back and once the delay is exceeded, turn
      toward the start, walk to it, turn to the start rotation, and finish
      exactly when both the position and the rotation are the start's. */
  function BackToStart(e: Enemy, pose: Pose, dt: real): (r: EnemyStep)
    ensures !r.attacked && r.spawned.None?
    ensures !e.isMovingBackToStart ==> r == EnemyStep(e, false, None, [])
    ensures e.isMovingBackToStart ==>
      r.enemy == e.(secondsSinceMoveToStart := e.secondsSinceMoveToStart + dt, isMovingBackToStart := r.enemy.isMovingBackToStart)
    ensures r.enemy.isMovingBackToStart <==>
      e.isMovingBackToStart
      && !(e.secondsSinceMoveToStart + dt > e.config.backToStartDelay && pose.atStartPosition && pose.atStartRotation)
    ensures |r.events| <= 1
    ensures e.secondsSinceMoveToStart + dt <= e.config.backToStartDelay ==> r == EnemyStep(r.enemy, false, None, [])
    ensures e.isMovingBackToStart && e.secondsSinceMoveToStart + dt > e.config.backToStartDelay && pose.atStartPosition ==>
      r.events == if pose.atStartRotation then [] else [RotateToStart(e.body.self.id)]
    ensures e.isMovingBackToStart && e.secondsSinceMoveToStart + dt > e.config.backToStartDelay && !pose.atStartPosition ==>
      r.events == [if pose.facingStart then MoveTowardStart(e.body.self.id) else TurnTowardStart(e.body.self.id)]
  {
    if !e.isMovingBackToStart then EnemyStep(e, false, None, [])
    else
      var e1 := e.(secondsSinceMoveToStart := e.secondsSinceMoveToStart + dt);
      if e1.secondsSinceMoveToStart <= e.config.backToStartDelay then EnemyStep(e1, false, None, [])
      else if !pose.atStartPosition then
        if !pose.facingStart then EnemyStep(e1, false, None, [TurnTowardStart(e.body.self.id)])
        else EnemyStep(e1, false, None, [MoveTowardStart(e.body.self.id)])
      else if !pose.atStartRotation then EnemyStep(e1, false, None, [RotateToStart(e.body.self.id)])
      else EnemyStep(e1.(isMovingBackToStart := false), false, None, [])
  }

  /** The enemy after the life pool's frame bookkeeping. */
  function WithFrameUpdate(e: Enemy, dt: real): (r: EnemyStep)
    requires e.Valid()
    ensures r.enemy.Valid()
    ensures r.enemy == e.(body := e.body.(self := UpdateEntity(e.body.self, dt).entity))
    ensures r.events == UpdateEntity(e.body.self, dt).events && !r.attacked && r.spawned.None?
  {
    var u := UpdateEntity(e.body.self, dt);
    EnemyStep(e.(body := e.body.(self := u.entity)), false, None, u.events)
  }

  /** `UpdateAttackerEnemy`, one physics step of length `dt`:
      - the life pool's frame bookkeeping, always;
      - nothing more without a player or when the enemy is dead;
      - when not pursuing, the walk back (if configured);
      - when pursuing, advance the follow timer, stop on a loss condition,
        otherwise face the player and run `AttackMove`. */
  function UpdateAttackerEnemy(e: Enemy, player: Option<Entity>, sight: Sight, pose: Pose,
                               now: real, dt: real, picks: Picks): (r: EnemyStep)
    requires e.Valid() && ValidPicks(e.body, picks)
    ensures r.enemy.Valid()
    ensures r.enemy.config == e.config
    ensures player.None? || !IsAlive(e.body.self) ==> r == WithFrameUpdate(e, dt)
    ensures r.attacked ==>
      player.Some? && IsAlive(e.body.self) && e.isAttackingTarget && !LostTrack(e.config, sight, e.secondsSinceStartedFollowing + dt)
    ensures r.enemy.isAttackingTarget <==>
      e.isAttackingTarget && !(player.Some? && IsAlive(e.body.self) && LostTrack(e.config, sight, e.secondsSinceStartedFollowing + dt))
    ensures player.Some? && IsAlive(e.body.self) && e.isAttackingTarget && LostTrack(e.config, sight, e.secondsSinceStartedFollowing + dt) ==>
      r.enemy.isMovingBackToStart && r.enemy.secondsSinceMoveToStart == 0.0 && r.spawned.None?
      && r.enemy.body == WithFrameUpdate(e, dt).enemy.body
    ensures player.Some? && IsAlive(e.body.self) && e.isAttackingTarget ==>
      r.enemy.secondsSinceStartedFollowing == e.secondsSinceStartedFollowing + dt
    ensures !e.isAttackingTarget ==>
      !r.attacked && r.spawned.None? && r.enemy.secondsSinceLastAttacked == e.secondsSinceLastAttacked
    ensures var framed := WithFrameUpdate(e, dt);
            player.Some? && IsAlive(e.body.self) && !e.isAttackingTarget ==>
              if e.config.backToStartOnStopAttack then
                var back := BackToStart(framed.enemy, pose, dt);
                r.enemy == back.enemy && r.events == framed.events + back.events
              else r == framed
    ensures var framed := WithFrameUpdate(e, dt);
            var e2 := framed.enemy.(secondsSinceStartedFollowing := e.secondsSinceStartedFollowing + dt);
            player.Some? && IsAlive(e.body.self) && e.isAttackingTarget ==>
              if LostTrack(e.config, sight, e2.secondsSinceStartedFollowing) then
                r == EnemyStep(StopAttackingPlayer(e2), false, None, framed.events)
              else
                var move := AttackMove(e2, player.value, sight.distance, now, dt, picks);
                r == EnemyStep(move.enemy, move.attacked, move.spawned, framed.events + [FaceTarget(player.value.id)] + move.events)
  {
    var framed := WithFrameUpdate(e, dt);
    var e1 := framed.enemy;
    if player.None? || !IsAlive(e1.body.self) then framed
    else if !e1.isAttackingTarget then
      if e1.config.backToStartOnStopAttack then
        var back := BackToStart(e1, pose, dt);
        EnemyStep(back.enemy, false, None, framed.events + back.events)
      else framed
    else
      var e2 := e1.(secondsSinceStartedFollowing := e1.secondsSinceStartedFollowing + dt);
      if LostTrack(e2.config, sight, e2.secondsSinceStartedFollowing) then
        EnemyStep(StopAttackingPlayer(e2), false, None, framed.events)
      else
        var move := AttackMove(e2, player.value, sight.distance, now, dt, picks);
        EnemyStep(move.enemy, move.attacked, move.spawned, framed.events + [FaceTarget(player.value.id)] + move.events)
  }

  /** `AfterDamaged` of the fighting-back variant: take the damage, then
      start pursuing the player if configured to fight back. */
  function TakeDamage(e: Enemy, amount: Int32, player: Option<Entity>): (r: EnemyStep)
    requires e.Valid()
    ensures r.enemy.Valid()
    ensures r.enemy.body.self == DamageAmount(e.body.self, amount).entity
    ensures r.enemy.isAttackingTarget <==>
      e.isAttackingTarget || (e.config.fightsBack && player.Some? && IsAlive(player.value))
    ensures r.events == DamageAmount(e.body.self, amount).events && !r.attacked && r.spawned.None?
    ensures var e1 := e.(body := e.body.(self := DamageAmount(e.body.self, amount).entity));
            r.enemy == if e.config.fightsBack then AttackPlayer(e1, player) else e1
  {
    var hurt := DamageAmount(e.body.self, amount);
    var e1 := e.(body := e.body.(self := hurt.entity));
    EnemyStep(if e.config.fightsBack then AttackPlayer(e1, player) else e1, false, None, hurt.events)
  }

  // ---------------------------------------------------------------------------
  // Start: every attack targets the player's tag
  // ---------------------------------------------------------------------------

  function Retagged(a: Attack, tag: string): Attack
  {
    a.(attackTags := Some([tag]))
  }

  function RetagAll(attacks: seq<Attack>, tag: string): (r: seq<Attack>)
    ensures |r| == |attacks|
    ensures forall i :: 0 <= i < |attacks| ==> r[i] == Retagged(attacks[i], tag)
  {
    seq(|attacks|, i requires 0 <= i < |attacks| => Retagged(attacks[i], tag))
  }

  /** Every attack of an index, retagged. */
  function RetagValues(m: map<string, Attack>, tag: string): (r: map<string, Attack>)
    ensures r.Keys == m.Keys
    ensures forall n :: n in m ==> r[n] == Retagged(m[n], tag)
  {
    map n | n in m :: Retagged(m[n], tag)
  }

  /** Retag a set. The index holds the list's own attack objects, so its
      entries that are list elements are retagged too. */
  function RetagSet(s: AttacksSet, tag: string): (r: AttacksSet)
    ensures r.attacks == RetagAll(s.attacks, tag)
    ensures r.byName.Some? <==> s.byName.Some?
    ensures s.byName.Some? ==> r.byName.value.Keys == s.byName.value.Keys
    ensures s.byName.Some? ==> forall n :: n in s.byName.value ==>
      r.byName.value[n] == if s.byName.value[n] in s.attacks then Retagged(s.byName.value[n], tag) else s.byName.value[n]
  {
    match s.byName
    case None => AttacksSet(RetagAll(s.attacks, tag), None)
    case Some(m) =>
      AttacksSet(RetagAll(s.attacks, tag),
                 Some(map n | n in m :: if m[n] in s.attacks then Retagged(m[n], tag) else m[n]))
  }

  lemma RetagValuesUpdate(m: map<string, Attack>, k: string, v: Attack, tag: string)
    ensures RetagValues(m[k := v], tag) == RetagValues(m, tag)[k := Retagged(v, tag)]
  {
  }

  /** Retagging a list and then indexing it equals indexing it and then
      retagging the index. */
  lemma {:induction false} RetagCommutesWithIndex(attacks: seq<Attack>, tag: string)
    ensures BuildIndex(RetagAll(attacks, tag)) == RetagValues(BuildIndex(attacks), tag)
  {
    if |attacks| > 0 {
      var tail := attacks[1..];
      var rt := RetagAll(attacks, tag);
      assert rt[1..] == RetagAll(tail, tag);
      RetagCommutesWithIndex(tail, tag);
      RetagValuesUpdate(BuildIndex(tail), attacks[0].name, attacks[0], tag);
    }
  }

  /** The listed attack a retagged attack came from, with the same kind. */
  lemma RetagSource(attacks: seq<Attack>, tag: string, a: Attack) returns (b: Attack)
    requires a in RetagAll(attacks, tag)
    ensures b in attacks && b.kind == a.kind
  {
    var i :| 0 <= i < |attacks| && RetagAll(attacks, tag)[i] == a;
    b := attacks[i];
  }

  /** Retagging distributes over concatenation. */
  lemma RetagAllAppend(s: seq<Attack>, t: seq<Attack>, tag: string)
    ensures RetagAll(s + t, tag) == RetagAll(s, tag) + RetagAll(t, tag)
  {
  }

  /** The attacker with all three attack sets retagged. */
  function RetagBody(b: Attacker, tag: string): Attacker
  {
    b.(closeSet := RetagSet(b.closeSet, tag), rangedSet := RetagSet(b.rangedSet, tag), targetedSet := RetagSet(b.targetedSet, tag))
  }

  /** Retagging keeps every set of one kind, and retags the attacks in list order. */
  lemma RetagBodyValid(b: Attacker, tag: string)
    requires b.Valid()
    ensures RetagBody(b, tag).Valid()
    ensures AllAttacks(RetagBody(b, tag)) == RetagAll(AllAttacks(b), tag)
  {
    var r := RetagBody(b, tag);
    forall a | a in r.closeSet.attacks ensures a.kind.Close? {
      var c := RetagSource(b.closeSet.attacks, tag, a);
    }
    forall a | a in r.rangedSet.attacks ensures a.kind.Ranged? {
      var c := RetagSource(b.rangedSet.attacks, tag, a);
    }
    forall a | a in r.targetedSet.attacks ensures a.kind.Targeted? {
      var c := RetagSource(b.targetedSet.attacks, tag, a);
    }
    RetagAllAppend(b.closeSet.attacks, b.rangedSet.attacks, tag);
    RetagAllAppend(b.closeSet.attacks + b.rangedSet.attacks, b.targetedSet.attacks, tag);
  }

  /** `Start`: without a player the source throws, modelled as `None`;
      otherwise every attack of every set now targets exactly the player's tag. */
  function Start(e: Enemy, player: Option<Entity>): (r: Option<Enemy>)
    requires e.Valid()
    ensures r.None? <==> player.None?
    ensures r.Some? ==> r.value.Valid()
    ensures r.Some? ==> forall a :: a in AllAttacks(r.value.body) ==> a.attackTags == Some([player.value.tag])
    ensures r.Some? ==>
      |AllAttacks(r.value.body)| == |AllAttacks(e.body)|
      && forall i :: 0 <= i < |AllAttacks(e.body)| ==> AllAttacks(r.value.body)[i] == Retagged(AllAttacks(e.body)[i], player.value.tag)
    ensures r.Some? ==>
      var tag := player.value.tag;
      r.value == e.(body := e.body.(closeSet := RetagSet(e.body.closeSet, tag),
                                    rangedSet := RetagSet(e.body.rangedSet, tag),
                                    targetedSet := RetagSet(e.body.targetedSet, tag)))
  {
    if player.None? then None
    else
      RetagBodyValid(e.body, player.value.tag);
      Some(e.(body := RetagBody(e.body, player.value.tag)))
  }

  // ---------------------------------------------------------------------------
  // Properties
  // ---------------------------------------------------------------------------

  /** A set whose index was built from its list keeps a consistent index after retagging. */
  lemma RetagKeepsIndexConsistent(s: AttacksSet, tag: string)
    requires s.byName == Some(BuildIndex(s.attacks))
    ensures RetagSet(s, tag).byName == Some(BuildIndex(RetagSet(s, tag).attacks))
  {
    var m := BuildIndex(s.attacks);
    var retagged := RetagSet(s, tag);
    var r := retagged.byName.value;
    IndexEntriesAreListed(s.attacks);
    assert r == RetagValues(m, tag);
    RetagCommutesWithIndex(s.attacks, tag);
  }

  /** Every entry of a built index is an element of the list. */
  lemma IndexEntriesAreListed(attacks: seq<Attack>)
    ensures forall n :: n in BuildIndex(attacks) ==> BuildIndex(attacks)[n] in attacks
  {
    forall n | n in BuildIndex(attacks) ensures BuildIndex(attacks)[n] in attacks {
      var k :| IsFirstNamed(attacks, k) && attacks[k].name == n && BuildIndex(attacks)[n] == attacks[k];
    }
  }

  /** A pursuing enemy with a maximum follow distance of 10 and the player
      at 15 stops pursuing in the very next step and heads back, attacking nothing. */
  lemma DistanceLossExample(e: Enemy, player: Entity, pose: Pose, now: real, dt: real, picks: Picks, blocked: bool)
    requires e.Valid() && ValidPicks(e.body, picks)
    requires e.isAttackingTarget && IsAlive(e.body.self)
    requires e.config.maxFollowDistance == Finite(10.0)
    ensures var r := UpdateAttackerEnemy(e, Some(player), Sight(15.0, blocked), pose, now, dt, picks);
            !r.enemy.isAttackingTarget && r.enemy.isMovingBackToStart && !r.attacked && r.spawned.None?
  {
  }

  /** The same-step double advance: after a ranged attempt fails, the melee
      attempt sees the timer already advanced by `dt`, so it can attack one
      step earlier than the configured gap alone would allow. */
  lemma FailedRangedAdvancesMeleeCadence(e: Enemy, player: Entity, distance: real, now: real, dt: real, picks: Picks)
    requires e.Valid() && ValidPicks(e.body, picks)
    requires |e.body.rangedSet.attacks| > 0 && |e.body.targetedSet.attacks| == 0
    requires e.body.rangedSet.attacks[picks.ranged].kind.projectile.prefab.None?
    requires |e.body.closeSet.attacks| > 0
    requires var close := e.body.closeSet.attacks[picks.close];
             close.kind.range >= distance && IsFar(e, Some(close), distance)
    requires IsAlive(e.body.self) && e.body.mana.None? && !HasCloseAttackPending(e.body, now)
    requires e.secondsSinceLastAttacked < e.config.secondsBetweenAttacks <= e.secondsSinceLastAttacked + dt
    ensures AttackMove(e, player, distance, now, dt, picks).attacked
  {
    var close := e.body.closeSet.attacks[picks.close];
    assert close in e.body.closeSet.attacks;
  }

  /** A melee attack is attempted only within its range. */
  lemma MeleeOnlyInRange(e: Enemy, a: Attack, player: Entity, distance: real, now: real, dt: real)
    requires e.Valid() && a.kind.Close?
    requires AttackIfNeeded(e, Some(a), player, distance, now, dt).attacked
    ensures a.kind.range >= distance
    ensures AttackIfNeeded(e, Some(a), player, distance, now, dt).enemy.body.closeExecutor.Some?
  {
  }

  /** The walk back ends exactly when the delay has passed and the enemy is
      back at its start position and rotation; it never restarts pursuit. */
  lemma ReturnCompletes(e: Enemy, player: Entity, sight: Sight, now: real, dt: real, picks: Picks)
    requires e.Valid() && ValidPicks(e.body, picks)
    requires !e.isAttackingTarget && e.isMovingBackToStart && e.config.backToStartOnStopAttack
    requires IsAlive(e.body.self)
    requires e.secondsSinceMoveToStart + dt > e.config.backToStartDelay
    ensures var r := UpdateAttackerEnemy(e, Some(player), sight, Pose(true, true, true), now, dt, picks);
            !r.enemy.isMovingBackToStart && !r.enemy.isAttackingTarget
  {
  }

  /** A pursuit restarted after a stop keeps walking back once it stops
      again: `AttackPlayer` does not clear the walk-back flag. */
  lemma PursuitKeepsWalkBackFlag(e: Enemy, player: Entity)
    requires e.isAttackingTarget && IsAlive(player)
    ensures var again := AttackPlayer(StopAttackingPlayer(e), Some(player));
            again.isAttackingTarget && again.isMovingBackToStart
            && again.secondsSinceStartedFollowing == 0.0 && again.secondsSinceLastAttacked == 0.0
  {
  }

  /** A fighting-back enemy starts pursuing a living player when damaged,
      even by a hit that kills it. */
  lemma FightsBackEvenWhenKilled(e: Enemy, amount: Int32, player: Entity)
    requires e.Valid() && e.config.fightsBack && IsAlive(player) && !e.isAttackingTarget
    ensures TakeDamage(e, amount, Some(player)).enemy.isAttackingTarget
  {
  }
}

=== FILE: entity.dfy ===
/**
 An entity that can take damage: an optional life pool whose value decides
 whether the entity is alive, and the damage, heal and death notifications.
 */
module Entities {
  import opened Numerics
  import opened Options
  import opened Events
  import opened BarStats
  import opened Attacks

  datatype Entity = Entity(id: EntityId, tag: string, life: Option<Pool>)
  {
    /** The life pool, when there is one, satisfies the pool invariant. */
    predicate Valid()
    {
      life.Some? ==> life.value.Valid()
    }
  }

  /** `IsAlive`: no life pool, or a positive life value. */
  predicate IsAlive(e: Entity)
    // a valid pool is never negative: an entity is dead exactly when its pool reads 0
    ensures e.Valid() ==> (!IsAlive(e) <==> e.life.Some? && e.life.value.current == 0)
  {
    e.life.None? || e.life.value.current > 0
  }

  /** An entity after an operation, with the notifications raised. */
  datatype EntityStep = EntityStep(entity: Entity, events: seq<Event>)

  /** The death notifications: `onDeath`, `onEntityDied`, then the `AfterDeath` hook. */
  function DeathEvents(id: EntityId): seq<Event>
  {
    [Death(id), EntityDied(id), AfterDeath(id)]
  }

  /** `Damage(int)`: decrease the life pool by the amount, always raise
      `onAttacked` and `AfterDamaged`, then raise the death notifications
      iff the pool reads 0 afterwards. */
  function DamageAmount(e: Entity, amount: Int32): (r: EntityStep)
    requires e.Valid()
    ensures r.entity.Valid()
    ensures r.entity.id == e.id && r.entity.tag == e.tag
    ensures r.entity.life.Some? <==> e.life.Some?
    ensures e.life.Some? ==> r.entity.life.value == Decrease(e.life.value, amount).pool
    ensures e.life.None? ==> r.entity == e && IsAlive(r.entity)
    ensures |r.events| >= 2
    // notifications of the pool come first, then onAttacked and AfterDamaged
    ensures var poolCount := if e.life.Some? then |Decrease(e.life.value, amount).events| else 0;
            && |r.events| >= poolCount + 2
            && r.events[..poolCount] == (if e.life.Some? then FromPool(LifeOf(e.id), Decrease(e.life.value, amount).events) else [])
            && r.events[poolCount] == Attacked(e.id)
            && r.events[poolCount + 1] == AfterDamaged(e.id)
            && r.events[poolCount + 2..] == if IsAlive(r.entity) then [] else DeathEvents(e.id)
    // death is announced iff there is a pool and it reads zero
    ensures (r.events[|r.events| - 1] == AfterDeath(e.id)) <==> !IsAlive(r.entity)
    ensures !IsAlive(r.entity) <==> (e.life.Some? && r.entity.life.value.current == 0)
  {
    match e.life
    case None =>
      EntityStep(e, [Attacked(e.id), AfterDamaged(e.id)])
    case Some(pool) =>
      var step := Decrease(pool, amount);
      var damaged := e.(life := Some(step.pool));
      var events := FromPool(LifeOf(e.id), step.events) + [Attacked(e.id), AfterDamaged(e.id)];
      if step.pool.current == 0 then EntityStep(damaged, events + DeathEvents(e.id))
      else EntityStep(damaged, events)
  }

  /** `Damage(attack)`: draw the attack's damage once and apply it; a
      critical hit's notification comes before the damage notifications. */
  function DamageByAttack(e: Entity, a: Attack, d: DamageDraws): (r: EntityStep)
    requires e.Valid() && ValidDraws(a, d)
    ensures r.entity.Valid()
    ensures r.entity == DamageAmount(e, GetDamage(a, d).amount).entity
    ensures r.events == GetDamage(a, d).events + DamageAmount(e, GetDamage(a, d).amount).events
  {
    var roll := GetDamage(a, d);
    var step := DamageAmount(e, roll.amount);
    EntityStep(step.entity, roll.events + step.events)
  }

  /** `Heal(n)`: increase the life pool; an entity without one is unchanged. */
  function Heal(e: Entity, n: Int32): (r: EntityStep)
    requires e.Valid()
    ensures r.entity.Valid()
    ensures e.life.None? ==> r == EntityStep(e, [])
    ensures e.life.Some? ==> r.entity == e.(life := Some(Increase(e.life.value, n).pool))
    ensures e.life.Some? ==> r.events == FromPool(LifeOf(e.id), Increase(e.life.value, n).events)
  {
    match e.life
    case None => EntityStep(e, [])
    case Some(pool) =>
      var step := Increase(pool, n);
      EntityStep(e.(life := Some(step.pool)), FromPool(LifeOf(e.id), step.events))
  }

  /** `HealFully`: restore the life pool to its maximum. */
  function HealFully(e: Entity): (r: EntityStep)
    requires e.Valid()
    ensures r.entity.Valid()
    ensures e.life.None? ==> r == EntityStep(e, [])
    ensures e.life.Some? ==> r.entity.life.Some? && r.entity.life.value.IsFull()
    ensures e.life.Some? && e.life.value.maximum > 0 ==> IsAlive(r.entity)
    ensures e.life.Some? ==> r.entity == e.(life := Some(RestoreFully(e.life.value).pool))
    ensures e.life.Some? ==> r.events == FromPool(LifeOf(e.id), RestoreFully(e.life.value).events)
  {
    match e.life
    case None => EntityStep(e, [])
    case Some(pool) =>
      var step := RestoreFully(pool);
      EntityStep(e.(life := Some(step.pool)), FromPool(LifeOf(e.id), step.events))
  }

  /** `UpdateEntity`, run every frame: the life pool's frame bookkeeping. It
      never changes the life value, so it never changes whether the entity is alive. */
  function UpdateEntity(e: Entity, dt: real): (r: EntityStep)
    requires e.Valid()
    ensures r.entity.Valid()
    ensures r.entity.id == e.id && r.entity.tag == e.tag
    ensures e.life.None? ==> r == EntityStep(e, [])
    ensures e.life.Some? ==> r.entity.life.Some? && r.entity.life.value.current == e.life.value.current
                             && r.entity.life.value.maximum == e.life.value.maximum
    ensures IsAlive(r.entity) <==> IsAlive(e)
    ensures e.life.Some? ==> r.entity == e.(life := Some(UpdateStatsFrame(e.life.value, dt).pool))
    ensures e.life.Some? ==> r.events == FromPool(LifeOf(e.id), UpdateStatsFrame(e.life.value, dt).events)
  {
    match e.life
    case None => EntityStep(e, [])
    case Some(pool) =>
      var step := UpdateStatsFrame(pool, dt);
      EntityStep(e.(life := Some(step.pool)), FromPool(LifeOf(e.id), step.events))
  }

  // ---------------------------------------------------------------------------
  // Properties
  // ---------------------------------------------------------------------------

  /** An entity without a life pool is always alive and never announces death. */
  lemma NoPoolNeverDies(e: Entity, amount: Int32)
    requires e.Valid() && e.life.None?
    ensures IsAlive(DamageAmount(e, amount).entity)
    ensures DamageAmount(e, amount).events == [Attacked(e.id), AfterDamaged(e.id)]
  {
  }

  /** Damaging an already-empty pool announces death again. */
  lemma DeathRepeatsOnEmptyPool(e: Entity, amount: Int32)
    requires e.Valid() && e.life.Some? && e.life.value.current == 0 && amount >= 0
    ensures !IsAlive(DamageAmount(e, amount).entity)
    ensures DamageAmount(e, amount).events[|DamageAmount(e, amount).events| - 3..] == DeathEvents(e.id)
  {
  }

  /** Damage exactly equal to the remaining life kills; less does not. */
  lemma LethalDamageThreshold(e: Entity, amount: Int32)
    requires e.Valid() && e.life.Some? && e.life.value.maximum > 0
    requires 0 <= amount <= e.life.value.current
    ensures IsAlive(DamageAmount(e, amount).entity) <==> amount < e.life.value.current
  {
  }

  /** Damage followed by a heal of the same amount restores life when the damage did not clamp. */
  lemma DamageThenHealRestores(e: Entity, amount: Int32)
    requires e.Valid() && e.life.Some? && e.life.value.maximum > 0
    requires 0 <= e.life.value.current - amount <= e.life.value.maximum
    ensures Heal(DamageAmount(e, amount).entity, amount).entity.life.value.current == e.life.value.current
  {
    DecreaseThenIncreaseRestores(e.life.value, amount);
  }
}

=== FILE: events.dfy ===
/**
 Notifications of the combat core. The source raises C# events, UnityEvents
 and virtual hooks; the model returns them, in the order they are raised, as
 an output trace of type `seq<Event>`.
 */
module Events {

  /** Identity of an entity (a scene object carrying an `Entity` component). */
  type EntityId = nat

  /** A designer-configured action (a `UnityEvent` or `UnityAction`). */
  type ActionId = nat

  /** Which resource pool a pool notification comes from. */
  datatype PoolRef = LifeOf(owner: EntityId) | ManaOf(owner: EntityId) | Standalone

  /** Notifications raised by one resource pool. */
  datatype PoolEvent =
    | CurrentValueChanged(oldValue: int, newValue: int)
    | MaximumValueChanged(oldValue: int, newValue: int)
    | BelowValueAction(action: ActionId)

  datatype Event =
    | Stat(pool: PoolRef, poolEvent: PoolEvent)
      // entity notifications: onAttacked, AfterDamaged, onDeath, onEntityDied, AfterDeath
    | Attacked(entity: EntityId)
    | AfterDamaged(entity: EntityId)
    | Death(entity: EntityId)
    | EntityDied(entity: EntityId)
    | AfterDeath(entity: EntityId)
      // attack notifications: onCriticalHit, beforeAttack, afterAttack
    | CriticalHit(attack: string)
    | BeforeAttack(attack: string)
    | AfterAttack(attack: string)
      // executor notifications: the per-execution hit action and onAttackHit
    | HitAction(action: ActionId)
    | AttackHit(attacker: EntityId, target: EntityId)
      // the attacker's onKill
    | Kill(attacker: EntityId)
      // projectile notifications and destruction requests
    | Damaging
    | DestroyRequested
    | Aimed
    | Translated
      // enemy movement requests (the motion itself is geometry)
    | FaceTarget(entity: EntityId)
    | MoveTowardTarget(entity: EntityId)
    | TurnTowardStart(entity: EntityId)
    | MoveTowardStart(entity: EntityId)
    | RotateToStart(entity: EntityId)
      // a pickup's onCollected
    | Collected

  /** Tag every notification of a pool with the pool it comes from. */
  function FromPool(pool: PoolRef, es: seq<PoolEvent>): (r: seq<Event>)
    ensures |r| == |es|
    ensures forall i :: 0 <= i < |es| ==> r[i] == Stat(pool, es[i])
  {
    seq(|es|, i requires 0 <= i < |es| => Stat(pool, es[i]))
  }
}

=== FILE: executor.dfy ===
/**
 Hit executors: the object that turns a collision into damage for one
 attack execution, and its melee variant, the hit window, which stops dealing
 damage once its time to live has passed.
 */
module Executors {
  import opened Numerics
  import opened Options
  import opened Events
  import opened Attacks
  import opened Entities

  /** What the engine finds on a collider: its tag and the `Entity`
      components on its own object, on its parents and on its children. */
  datatype Collider = Collider(tag: string, onSelf: Option<Entity>, inParents: Option<Entity>, inChildren: Option<Entity>)

  /** The entity a collider resolves to: its own, else a parent's, else a child's. */
  function ResolveEntity(c: Collider): (r: Option<Entity>)
    ensures c.onSelf.Some? ==> r == c.onSelf
    ensures c.onSelf.None? && c.inParents.Some? ==> r == c.inParents
    ensures c.onSelf.None? && c.inParents.None? ==> r == c.inChildren
  {
    if c.onSelf.Some? then c.onSelf
    else if c.inParents.Some? then c.inParents
    else c.inChildren
  }

  /** The entities a collider can resolve to carry valid life pools. */
  predicate ValidCollider(c: Collider)
  {
    ResolveEntity(c).Some? ==> ResolveEntity(c).value.Valid()
  }

  /** One attack execution. `attackerListens` records whether the attacker's
      hit handler is still subscribed to `onAttackHit`. */
  datatype Executor = Executor(
    attack: Attack,
    attacker: EntityId,
    startTime: real,
    onHitAction: Option<ActionId>,
    attackerListens: bool)

  /** The constructor: a missing attack or attacker leaves the executor unset
      (`None`); otherwise it records both and the current time. */
  function NewExecutor(attack: Option<Attack>, attacker: Option<EntityId>, now: real, onHitAction: Option<ActionId>): (r: Option<Executor>)
    ensures r.Some? <==> attack.Some? && attacker.Some?
    ensures r.Some? ==> && r.value.attack == attack.value
                        && r.value.attacker == attacker.value
                        && r.value.startTime == now
                        && r.value.onHitAction == onHitAction
                        && !r.value.attackerListens
  {
    if attacker.Some? && attack.Some? then Some(Executor(attack.value, attacker.value, now, onHitAction, false))
    else None
  }

  /** The damage-eligibility rule of `DamageCollider`: an entity is resolved,
      it is not the attacker, it is alive, and the attack accepts the
      entity's tag or the collider's tag. */
  predicate Eligible(x: Executor, c: Collider)
  {
    match ResolveEntity(c)
    case None => false
    case Some(e) =>
      && e.id != x.attacker
      && IsAlive(e)
      && (IsTagAttackable(x.attack, e.tag) || IsTagAttackable(x.attack, c.tag))
  }

  /** The result of offering a collision to an executor: whether damage was
      applied, the executor afterwards, the damaged entity, and the notifications. */
  datatype HitOutcome = HitOutcome(hit: bool, executor: Executor, target: Option<Entity>, events: seq<Event>)

  function HitActionEvents(x: Executor): seq<Event>
  {
    if x.onHitAction.Some? then [HitAction(x.onHitAction.value)] else []
  }

  /** The listener's reaction to `onAttackHit`: the attacker's `onKill` when
      the hit left the target dead. */
  function KillEvents(x: Executor, target: Entity): seq<Event>
  {
    if x.attackerListens && !IsAlive(target) then [Kill(x.attacker)] else []
  }

  /** A sequence built as `a + [b] + c` splits back into its three parts. */
  lemma SplitAround(a: seq<Event>, b: Event, c: seq<Event>)
    ensures var s := a + ([b] + c);
            |s| == |a| + 1 + |c| && s[..|a|] == a && s[|a|] == b && s[|a| + 1..] == c
  {
    var s := a + ([b] + c);
    assert s[..|a|] == a;
    assert s[|a| + 1..] == c;
  }

  /** The only `onKill` after a hit is the listener's reaction to a kill. */
  lemma KillOnlyFromListener(x: Executor, id: EntityId, target: Entity)
    ensures Kill(x.attacker) in HitActionEvents(x) + [AttackHit(x.attacker, id)] + KillEvents(x, target)
            <==> x.attackerListens && !IsAlive(target)
  {
    var tail := HitActionEvents(x) + [AttackHit(x.attacker, id)] + KillEvents(x, target);
    assert Kill(x.attacker) in tail <==> Kill(x.attacker) in KillEvents(x, target) by {
      if Kill(x.attacker) in tail {
        var i :| 0 <= i < |tail| && tail[i] == Kill(x.attacker);
        if i < |HitActionEvents(x)| + 1 {
          assert tail[i] == (HitActionEvents(x) + [AttackHit(x.attacker, id)])[i];
        } else {
          assert tail[i] == KillEvents(x, target)[i - |HitActionEvents(x)| - 1];
        }
      }
    }
  }

  /** `DamageCollider`: when eligible, damage the entity with the attack, then
      raise `afterAttack`, the execution's hit action and `onAttackHit`
      (whose attacker handler raises `onKill` for a kill and unsubscribes);
      otherwise report no hit and change nothing. */
  function DamageCollider(x: Executor, c: Collider, d: DamageDraws): (r: HitOutcome)
    requires ValidCollider(c) && ValidDraws(x.attack, d)
    ensures r.hit <==> Eligible(x, c)
    ensures !r.hit ==> r == HitOutcome(false, x, None, [])
    ensures r.hit ==>
      var e := ResolveEntity(c).value;
      var damage := DamageByAttack(e, x.attack, d);
      var n := |damage.events|;
      && r.target == Some(damage.entity)
      && r.target.value.id == e.id
      && r.executor == x.(attackerListens := false)
      && |r.events| >= n + 2
      && r.events[..n] == damage.events
      && r.events[n] == AfterAttack(x.attack.name)
      && r.events[n + 1..] == HitActionEvents(x) + [AttackHit(x.attacker, e.id)] + KillEvents(x, damage.entity)
      && (Kill(x.attacker) in r.events[n + 1..] <==> x.attackerListens && !IsAlive(damage.entity))
  {
    if Eligible(x, c) then
      var e := ResolveEntity(c).value;
      var damage := DamageByAttack(e, x.attack, d);
      var tail := HitActionEvents(x) + [AttackHit(x.attacker, e.id)] + KillEvents(x, damage.entity);
      var events := damage.events + ([AfterAttack(x.attack.name)] + tail);
      SplitAround(damage.events, AfterAttack(x.attack.name), tail);
      KillOnlyFromListener(x, e.id, damage.entity);
      HitOutcome(true, x.(attackerListens := false), Some(damage.entity), events)
    else HitOutcome(false, x, None, [])
  }

  /** The shortest time a melee hit window stays open, in seconds. */
  const MinimumHitTime: real := 0.3

  /** `TimeToLivePassed` of the melee executor: always for a non-melee attack,
      otherwise once `now` reaches the start plus the larger of the attack's
      hit time and the 0.3 s floor. */
  predicate TimeToLivePassed(x: Executor, now: real)
    ensures !x.attack.kind.Close? ==> TimeToLivePassed(x, now)
    ensures x.attack.kind.Close? && now < x.startTime + MinimumHitTime ==> !TimeToLivePassed(x, now)
    // a melee window closes once both the 0.3 s floor and its own hit time have elapsed
    ensures x.attack.kind.Close? ==>
      (TimeToLivePassed(x, now) <==> now >= x.startTime + MinimumHitTime && now >= x.startTime + x.attack.kind.maxHitTimeSeconds)
  {
    !x.attack.kind.Close? || now >= x.startTime + MaxReal(x.attack.kind.maxHitTimeSeconds, MinimumHitTime)
  }

  /** `DamageCollider` of the melee executor: nothing after the time to live,
      the base behaviour before it. */
  function CloseDamageCollider(x: Executor, c: Collider, now: real, d: DamageDraws): (r: HitOutcome)
    requires ValidCollider(c) && ValidDraws(x.attack, d)
    ensures TimeToLivePassed(x, now) ==> r == HitOutcome(false, x, None, [])
    ensures !TimeToLivePassed(x, now) ==> r == DamageCollider(x, c, d)
    ensures r.hit <==> !TimeToLivePassed(x, now) && Eligible(x, c)
  {
    if TimeToLivePassed(x, now) then HitOutcome(false, x, None, [])
    else DamageCollider(x, c, d)
  }

  // ---------------------------------------------------------------------------
  // Properties
  // ---------------------------------------------------------------------------

  /** A hit window whose attack asks for less than 0.3 s still stays open for
      0.3 s: it is open at every moment before that and closed from then on. */
  lemma HitWindowFloor(x: Executor, now: real)
    requires x.attack.kind.Close? && x.attack.kind.maxHitTimeSeconds <= MinimumHitTime
    ensures TimeToLivePassed(x, now) <==> now >= x.startTime + MinimumHitTime
  {
  }

  /** Once its time to live has passed, a hit window deals no damage to any collider. */
  lemma ExpiredWindowNeverHits(x: Executor, c: Collider, now: real, later: real, d: DamageDraws)
    requires ValidCollider(c) && ValidDraws(x.attack, d)
    requires TimeToLivePassed(x, now) && now <= later
    ensures !CloseDamageCollider(x, c, later, d).hit
  {
  }

  /** The attacker itself is never damaged by its own execution, whatever the tags. */
  lemma NeverHitsOwnAttacker(x: Executor, c: Collider, d: DamageDraws)
    requires ValidCollider(c) && ValidDraws(x.attack, d)
    requires ResolveEntity(c).Some? && ResolveEntity(c).value.id == x.attacker
    ensures !DamageCollider(x, c, d).hit
  {
  }

  /** A melee hit of a deterministic attack lowers an alive, untagged target's
      life by exactly the damage. */
  lemma DeterministicMeleeHit(x: Executor, c: Collider, now: real, d: DamageDraws)
    requires ValidCollider(c) && ValidDraws(x.attack, d)
    requires !TimeToLivePassed(x, now)
    requires x.attack.attackTags.None? && x.attack.damage.minimum == x.attack.damage.maximum
    requires x.attack.critical.probability < d.chance
    requires c.onSelf.Some? && c.onSelf.value.id != x.attacker
    requires c.onSelf.value.life.Some? && c.onSelf.value.life.value.maximum > 0
    requires x.attack.damage.minimum <= c.onSelf.value.life.value.current
    requires IsAlive(c.onSelf.value) && x.attack.damage.minimum >= 0
    ensures var r := CloseDamageCollider(x, c, now, d);
            && r.hit
            && r.target.value.life.value.current == c.onSelf.value.life.value.current - x.attack.damage.minimum
  {
  }
}

=== FILE: numerics.dfy ===
/**
 Numeric building blocks shared by the combat model: the 32-bit integers of
 the C# code with their unchecked wrap-around, Unity's integer clamp, the
 contract of a supplied integer random draw, and a real number that may be
 positive infinity (the engine's `Mathf.Infinity` configuration value).
 */
module Numerics {

  const MinInt32: int := -0x8000_0000
  const MaxInt32: int := 0x7fff_ffff
  const TwoTo32: int := 0x1_0000_0000

  /** The values of a C# `int`. */
  type Int32 = x: int | MinInt32 <= x <= MaxInt32

  /** The result of unchecked C# `int` arithmetic whose exact value is `x`:
      two's complement wrap-around into the 32-bit range. */
  function Wrap(x: int): (r: Int32)
    ensures MinInt32 <= x <= MaxInt32 ==> r == x
  {
    if MinInt32 <= x <= MaxInt32 then x
    else (x - MinInt32) % TwoTo32 + MinInt32
  }

  /** `Mathf.Clamp(value, min, max)` on integers: the lower bound is checked first. */
  function Clamp(v: int, lo: int, hi: int): (r: int)
    ensures lo <= hi ==> lo <= r <= hi
    ensures lo <= v <= hi ==> r == v
    ensures v < lo ==> r == lo
    ensures lo <= v && hi < v ==> r == hi
  {
    if v < lo then lo else if v > hi then hi else v
  }

  function MaxReal(a: real, b: real): (r: real)
    ensures r >= a && r >= b
    ensures r == a || r == b
  {
    if a >= b then a else b
  }

  function MinReal(a: real, b: real): (r: real)
    ensures r <= a && r <= b
    ensures r == a || r == b
  {
    if a <= b then a else b
  }

  /** `d` is a value `Random.Range(lo, hi)` on integers can return: a value of
      `[lo, hi)`, or `lo` itself when both bounds are equal. With reversed
      bounds the draw is only known to lie between them. */
  predicate IntDraw(lo: int, hi: int, d: int)
  {
    if lo < hi then lo <= d < hi
    else if lo == hi then d == lo
    else hi <= d <= lo
  }

  /** A float configuration value that may be `Mathf.Infinity`. */
  datatype Extended = Finite(value: real) | Infinity
  {
    /** `x <= this` on floats. */
    predicate AtLeast(x: real)
    {
      Infinity? || x <= value
    }

    /** `x >= this` on floats: never for infinity. */
    predicate ReachedBy(x: real)
    {
      Finite? && value <= x
    }
  }
}

=== FILE: options.dfy ===
/** The optional value that stands in for a C# reference that may be null. */
module Options {

  datatype Option<+T> = None | Some(value: T)
  {
    function GetOr(default: T): T
    {
      match this
      case Some(v) => v
      case None => default
    }
  }
}

=== FILE: pickups.dfy ===
/**
 Pickups: the ammo refiller, collected at most once and only when the refill
 changed something, and the stats restorer, which keeps restoring its pool
 on every allowed collision until the pool is full.
 */
module Pickups {
  import opened Numerics
  import opened Options
  import opened Events
  import opened BarStats
  import opened Attacks
  import opened AttackSets
  import opened Attackers

  /** An ammo pickup. `attackName` empty refills every kind; `attacker`, when
      set, is the only attacker allowed to collect it. */
  datatype AmmoRefiller = AmmoRefiller(ammoCount: Int32, attackName: string, attacker: Option<EntityId>, wasCollected: bool)

  /** The pickup and the collecting attacker after a collision, with the notifications. */
  datatype Collection = Collection(refiller: AmmoRefiller, collector: Option<Attacker>, events: seq<Event>)

  /** The collector is one this pickup accepts. */
  predicate Accepts(p: AmmoRefiller, collector: Option<Attacker>)
  {
    collector.Some? && (p.attacker.None? || collector.value.self.id == p.attacker.value)
  }

  /** The refill a collector asks for: all kinds for an empty name, otherwise
      the kind of the attack found under that name (nothing when none is). */
  function RequestedRefill(p: AmmoRefiller, x: Attacker): (r: Refill)
    ensures |p.attackName| == 0 ==> r == RefillAllAmmos(x.ammo)
    ensures |p.attackName| > 0 && GetAttack(x, p.attackName).None? ==> r == Refill(x.ammo, false)
    ensures |p.attackName| > 0 && GetAttack(x, p.attackName).Some? ==>
      r == RefillAmmo(x.ammo, p.ammoCount, GetAttack(x, p.attackName).value)
    ensures !r.refilled ==> r.ammo == x.ammo
  {
    if |p.attackName| == 0 then RefillAllAmmos(x.ammo)
    else
      match GetAttack(x, p.attackName)
      case None => Refill(x.ammo, false)
      case Some(a) => RefillAmmo(x.ammo, p.ammoCount, a)
  }

  /** `AmmoRefiller.Collect` for the attacker the collider resolves to (if
      any): an uncollected pickup refills an accepted collector; only when
      the refill changed something does it raise `onCollected` and become
      collected. */
  function CollectAmmo(p: AmmoRefiller, collector: Option<Attacker>): (r: Collection)
    ensures p.wasCollected || !Accepts(p, collector) ==> r == Collection(p, collector, [])
    ensures r.refiller == p.(wasCollected := r.refiller.wasCollected)
    ensures r.refiller.wasCollected <==>
      p.wasCollected || (Accepts(p, collector) && RequestedRefill(p, collector.value).refilled)
    ensures Collected in r.events <==> r.refiller.wasCollected && !p.wasCollected
    ensures r.collector.Some? <==> collector.Some?
    ensures r.collector.Some? ==> r.collector.value == collector.value.(ammo := r.collector.value.ammo)
    ensures !p.wasCollected && Accepts(p, collector) ==> r.collector.value.ammo == RequestedRefill(p, collector.value).ammo
  {
    if !p.wasCollected && Accepts(p, collector) then
      var x := collector.value;
      var refill := RequestedRefill(p, x);
      var after := Some(x.(ammo := refill.ammo));
      if refill.refilled then Collection(p.(wasCollected := true), after, [Collected])
      else Collection(p, after, [])
    else Collection(p, collector, [])
  }

  /** A potion: restores `amount` of its pool when an allowed tag collides. */
  datatype StatsRestorer = StatsRestorer(amount: Int32, tags: Option<seq<string>>)

  /** A missing or empty tag list allows every tag. */
  predicate TagAllowed(s: StatsRestorer, tag: string)
  {
    s.tags.None? || |s.tags.value| == 0 || tag in s.tags.value
  }

  /** A pool after a restore attempt, with the notifications. */
  datatype Restore = Restore(pool: Pool, events: seq<Event>)

  /** `StatsRestorer.Collect`: when the pool is not full and the collider's
      tag is allowed, raise `onCollected` and then increase the pool. */
  function CollectStats(s: StatsRestorer, pool: Pool, owner: PoolRef, colliderTag: string): (r: Restore)
    requires pool.Valid()
    ensures r.pool.Valid()
    ensures pool.IsFull() || !TagAllowed(s, colliderTag) ==> r == Restore(pool, [])
    ensures !pool.IsFull() && TagAllowed(s, colliderTag) ==>
      && r.pool == Increase(pool, s.amount).pool
      && |r.events| > 0 && r.events[0] == Collected
      && r.events[1..] == FromPool(owner, Increase(pool, s.amount).events)
  {
    if !pool.IsFull() && TagAllowed(s, colliderTag) then
      var step := Increase(pool, s.amount);
      var events := [Collected] + FromPool(owner, step.events);
      assert events[1..] == FromPool(owner, step.events);
      Restore(step.pool, events)
    else Restore(pool, [])
  }

  // ---------------------------------------------------------------------------
  // Properties
  // ---------------------------------------------------------------------------

  /** A collected ammo pickup does nothing to any later collector. */
  lemma CollectedOnlyOnce(p: AmmoRefiller, first: Option<Attacker>, second: Option<Attacker>)
    requires CollectAmmo(p, first).refiller.wasCollected
    ensures var again := CollectAmmo(CollectAmmo(p, first).refiller, second);
            again.collector == second && again.events == [] && again.refiller.wasCollected
  {
  }

  /** A pickup whose refill changes nothing stays available, for example a
      refill-all pickup offered to an attacker with a full ledger. */
  lemma NoOpRefillStaysAvailable(p: AmmoRefiller, x: Attacker)
    requires !p.wasCollected && p.attacker.None? && |p.attackName| == 0 && x.ammo == map[]
    ensures var r := CollectAmmo(p, Some(x));
            !r.refiller.wasCollected && r.events == [] && r.collector == Some(x)
  {
  }

  /** A pickup reserved for one attacker ignores every other attacker. */
  lemma ReservedPickupIgnoresOthers(p: AmmoRefiller, x: Attacker)
    requires p.attacker.Some? && x.self.id != p.attacker.value
    ensures CollectAmmo(p, Some(x)) == Collection(p, Some(x), [])
  {
  }

  /** `k` collections in a row by the same allowed collider. */
  function CollectStatsTimes(s: StatsRestorer, pool: Pool, owner: PoolRef, tag: string, k: nat): (r: Pool)
    requires pool.Valid()
    ensures r.Valid() && r.maximum == pool.maximum
  {
    if k == 0 then pool else CollectStats(s, CollectStatsTimes(s, pool, owner, tag, k - 1), owner, tag).pool
  }

  /** One allowed collection of a positive amount raises the pool by the
      amount, up to its maximum. */
  lemma RestoreOnce(s: StatsRestorer, pool: Pool, owner: PoolRef, tag: string)
    requires pool.Valid() && pool.maximum > 0 && TagAllowed(s, tag)
    requires 0 < s.amount && pool.maximum + s.amount <= MaxInt32
    ensures CollectStats(s, pool, owner, tag).pool.current ==
            if pool.current + s.amount <= pool.maximum then pool.current + s.amount else pool.maximum
  {
  }

  /** Multiplication unfolds one step at a time. */
  lemma MulStep(k: int, a: int)
    ensures k * a == (k - 1) * a + a
  {
  }

  /** Repeated allowed collections of a positive amount raise the pool by the
      amount each time until it is full, and leave a full pool full. */
  lemma {:induction false} RestoresUntilFull(s: StatsRestorer, pool: Pool, owner: PoolRef, tag: string, k: nat)
    requires pool.Valid() && pool.maximum > 0 && TagAllowed(s, tag)
    requires 0 < s.amount && pool.maximum + s.amount <= MaxInt32
    ensures var after := CollectStatsTimes(s, pool, owner, tag, k);
            after.current == if pool.current + k * s.amount <= pool.maximum then pool.current + k * s.amount else pool.maximum
  {
    if k > 0 {
      RestoresUntilFull(s, pool, owner, tag, k - 1);
      var before := CollectStatsTimes(s, pool, owner, tag, k - 1);
      RestoreOnce(s, before, owner, tag);
      MulStep(k, s.amount);
    }
  }
}

=== FILE: projectile.dfy ===
/**
 Projectiles: the per-physics-step decision (stop after a hit, destroy past
 the maximum distance, otherwise move), collision handling through the
 projectile's executor, and creation of forward and targeted projectiles.
 Positions are geometry: the distance travelled and the target's liveness
 are inputs, and movement is reported as notifications.
 */
module Projectiles {
  import opened Numerics
  import opened Options
  import opened Events
  import opened Attacks
  import opened Entities
  import opened Executors

  /** How a projectile moves: along its initial heading, or re-aimed at a target every step. */
  datatype Guidance = Forward | TowardTarget(target: EntityId)

  datatype Projectile = Projectile(
    speed: real,
    destroyAfterHit: bool,
    maximumDistance: Extended,
    attackerOnHit: Option<Executor>,
    wasHit: bool,
    guidance: Guidance)

  datatype ProjectileStep = ProjectileStep(projectile: Projectile, events: seq<Event>)

  /** `MovementUpdate`. A forward projectile translates. A targeted one
      requests its destruction when the target is dead but does not return:
      it still re-aims at the target and translates in the same step. */
  function MovementUpdate(p: Projectile, targetAlive: bool): (r: seq<Event>)
    ensures Translated in r && r[|r| - 1] == Translated
    ensures Aimed in r <==> p.guidance.TowardTarget?
    ensures DestroyRequested in r <==> p.guidance.TowardTarget? && !targetAlive
  {
    match p.guidance
    case Forward => [Translated]
    case TowardTarget(_) =>
      (if targetAlive then [] else [DestroyRequested]) + [Aimed, Translated]
  }

  /** `FixedUpdate`: nothing once hit; otherwise move while the distance
      travelled is within the maximum (or the maximum is infinite), and
      request destruction, without any other effect, beyond it. */
  function FixedUpdate(p: Projectile, travelled: real, targetAlive: bool): (r: ProjectileStep)
    ensures r.projectile == p
    ensures p.wasHit ==> r.events == []
    ensures !p.wasHit && !p.maximumDistance.AtLeast(travelled) ==> r.events == [DestroyRequested]
    ensures !p.wasHit && p.maximumDistance.AtLeast(travelled) ==>
      && Translated in r.events
      && (DestroyRequested in r.events <==> p.guidance.TowardTarget? && !targetAlive)
    ensures Translated in r.events <==> !p.wasHit && p.maximumDistance.AtLeast(travelled)
  {
    if p.wasHit then ProjectileStep(p, [])
    else if p.maximumDistance.Infinity? || travelled <= p.maximumDistance.value then
      ProjectileStep(p, MovementUpdate(p, targetAlive))
    else ProjectileStep(p, [DestroyRequested])
  }

  /** A collider on the firing attacker's own object. */
  predicate IsAttackerCollider(c: Collider, attacker: EntityId)
  {
    c.onSelf.Some? && c.onSelf.value.id == attacker
  }

  /** The result of a collision: the projectile afterwards, the damaged entity, notifications. */
  datatype ProjectileHit = ProjectileHit(projectile: Projectile, target: Option<Entity>, events: seq<Event>)

  /** `DamageCollider` of a projectile: without an executor nothing happens;
      a collider of the firing attacker's own object is ignored; otherwise the
      executor decides, and a hit sets `wasHit`, raises `onDamaging`, and
      requests destruction iff `destroyAfterHit`. */
  function OnCollision(p: Projectile, c: Collider, d: DamageDraws): (r: ProjectileHit)
    requires p.attackerOnHit.Some? ==> ValidDraws(p.attackerOnHit.value.attack, d)
    requires ValidCollider(c)
    ensures p.attackerOnHit.None? ==> r == ProjectileHit(p, None, [])
    ensures p.attackerOnHit.Some? && IsAttackerCollider(c, p.attackerOnHit.value.attacker) ==> r == ProjectileHit(p, None, [])
    ensures r.projectile.wasHit <==> p.wasHit || r.target.Some?
    ensures r.target.Some? <==>
      && p.attackerOnHit.Some?
      && !IsAttackerCollider(c, p.attackerOnHit.value.attacker)
      && Eligible(p.attackerOnHit.value, c)
    ensures r.target.None? ==> r == ProjectileHit(p, None, [])
    ensures r.target.Some? ==>
      var hit := DamageCollider(p.attackerOnHit.value, c, d);
      && r.target == hit.target
      && r.projectile == p.(wasHit := true, attackerOnHit := Some(hit.executor))
      && |r.events| > |hit.events|
      && r.events[..|hit.events|] == hit.events
      && r.events[|hit.events|..] == [Damaging] + (if p.destroyAfterHit then [DestroyRequested] else [])
  {
    match p.attackerOnHit
    case None => ProjectileHit(p, None, [])
    case Some(x) =>
      if IsAttackerCollider(c, x.attacker) then ProjectileHit(p, None, [])
      else
        var hit := DamageCollider(x, c, d);
        if hit.hit then
          var events := hit.events + ([Damaging] + (if p.destroyAfterHit then [DestroyRequested] else []));
          assert events[..|hit.events|] == hit.events;
          ProjectileHit(p.(wasHit := true, attackerOnHit := Some(hit.executor)), hit.target, events)
        else ProjectileHit(p, None, [])
  }

  /** Instantiate a prefab with a fresh executor. */
  function Spawn(template: ProjectileTemplate, x: Option<Executor>, guidance: Guidance): Projectile
  {
    Projectile(template.speed, template.destroyAfterHit, template.maximumDistance, x, false, guidance)
  }

  /** `ForwardProjectile.Create`: instantiate the attack's prefab with an executor for (attack, attacker). */
  function CreateForward(a: Attack, attacker: EntityId, now: real): (r: Projectile)
    requires a.kind.Ranged? && a.kind.projectile.prefab.Some?
    ensures r.attackerOnHit == NewExecutor(Some(a), Some(attacker), now, None)
    ensures r.guidance.Forward? && !r.wasHit
    ensures r.destroyAfterHit == a.kind.projectile.prefab.value.destroyAfterHit
  {
    Spawn(a.kind.projectile.prefab.value, NewExecutor(Some(a), Some(attacker), now, None), Forward)
  }

  /** The distance cap of a targeted attack excludes this target: the cap is
      neither 0 nor infinite and the target is strictly farther. */
  predicate OutOfReach(cap: Extended, distance: real)
  {
    cap.Finite? && cap.value != 0.0 && distance > cap.value
  }

  /** `TargetedProjectile.Create`: nothing when the target, the attack or the
      attacker is missing or the target is out of reach; otherwise a
      projectile carrying an executor for (attack, attacker) that homes on
      the target. The target's liveness is not checked. */
  function CreateTargeted(target: Option<Entity>, a: Option<Attack>, attacker: Option<EntityId>,
                          distance: real, cap: Extended, now: real): (r: Option<Projectile>)
    requires a.Some? ==> a.value.kind.Targeted? && a.value.kind.projectile.prefab.Some?
    ensures r.None? <==> target.None? || a.None? || attacker.None? || OutOfReach(cap, distance)
    ensures r.Some? ==>
      && r.value.attackerOnHit.Some?
      && r.value.attackerOnHit.value.attack == a.value
      && r.value.attackerOnHit.value.attacker == attacker.value
      && !r.value.attackerOnHit.value.attackerListens
      && r.value.guidance == TowardTarget(target.value.id)
      && !r.value.wasHit
  {
    if target.None? || a.None? || attacker.None? || OutOfReach(cap, distance) then None
    else
      Some(Spawn(a.value.kind.projectile.prefab.value, NewExecutor(a, attacker, now, None), TowardTarget(target.value.id)))
  }

  // ---------------------------------------------------------------------------
  // Properties
  // ---------------------------------------------------------------------------

  /** A cap of 0 or infinity places no restriction on the distance, and a
      target exactly at the cap is in reach. */
  lemma CapBoundary(target: Entity, a: Attack, attacker: EntityId, distance: real, cap: Extended, now: real)
    requires a.kind.Targeted? && a.kind.projectile.prefab.Some?
    requires cap == Finite(0.0) || cap == Infinity || cap == Finite(distance)
    ensures CreateTargeted(Some(target), Some(a), Some(attacker), distance, cap, now).Some?
  {
  }

  /** A projectile that has hit stays inert in every later step. */
  lemma HitProjectileIsInert(p: Projectile, c: Collider, d: DamageDraws, travelled: real, targetAlive: bool)
    requires p.attackerOnHit.Some? ==> ValidDraws(p.attackerOnHit.value.attack, d)
    requires ValidCollider(c)
    requires OnCollision(p, c, d).target.Some?
    ensures FixedUpdate(OnCollision(p, c, d).projectile, travelled, targetAlive).events == []
  {
  }

  /** `wasHit` only stops movement: a projectile kept alive after a hit
      still damages the next eligible collider. */
  lemma KeptProjectileHitsAgain(p: Projectile, c1: Collider, c2: Collider, d1: DamageDraws, d2: DamageDraws)
    requires p.attackerOnHit.Some?
    requires ValidDraws(p.attackerOnHit.value.attack, d1) && ValidDraws(p.attackerOnHit.value.attack, d2)
    requires ValidCollider(c1) && ValidCollider(c2)
    requires OnCollision(p, c1, d1).target.Some?
    requires !IsAttackerCollider(c2, p.attackerOnHit.value.attacker) && Eligible(p.attackerOnHit.value, c2)
    ensures OnCollision(OnCollision(p, c1, d1).projectile, c2, d2).target.Some?
  {
    var after := OnCollision(p, c1, d1).projectile;
    var x := p.attackerOnHit.value;
    assert after.attackerOnHit == Some(x.(attackerListens := false));
    assert Eligible(x.(attackerListens := false), c2);
  }
}
